=== FILE: README.md ===
# Levenberg-Marquardt curve fitter: a Dafny model

This project models the discrete control logic of the Levenberg-Marquardt
curve fitter of rusfun (`src/curve_fit.rs`). It covers the following parts:

- the weighted chi-squared figure of merit;
- the bookkeeping of `Minimizer::init`;
- the damped normal equations and the mask-driven scatter of the step in `lm`;
- `minimize` as a pure state transition per loop pass, driven by an explicit fuel bound;
- the covariance/error placement after the loop;
- the coefficient of determination `calculate_R2`.

The arithmetic is over `real`. f64 special values are modelled only at
these places (module `ExtFloat`):

- the gain ratio `rho`, whose `0 / 0` is NaN and is never accepted;
- the NaN-seeded `f64::max` folds behind `metric_gradient` and `metric_parameters`;
- the reduced chi2 with zero degrees of freedom (`chi2 / 0`);
- the square root of a negative variance;
- R2 of data without spread.

The model function (`Func1D`) and the linear-algebra routines of `crate::utils`
are parameters of the model. They are function-valued fields with shape-only
contracts (module `Collaborators`).

Modules, in dependency order:

- `ExtFloat`: NaN, infinities, f64 division, multiplication, `max` and `sqrt`.
- `Vectors`: vectors, matrices and the algebra of the dot product.
- `Mask`: the variation mask, counting, scatter/gather and the index walk.
- `ChiSquared`: `chi2`.
- `NormalEquations`: `J^T W J` and the damped system.
- `Damping`: the clamped lambda schedule.
- `Broyden`: the rank-1 Jacobian update and its secant condition.
- `Collaborators`: the model function and the numerical routines.
- `Fitter`: the state, `init` and `lm`.
- `Control`: acceptance, the Jacobian strategy, convergence and one loop pass.
- `Driver`: the loop with fuel, the covariance and the errors.
- `Determination`: R2.

Where the code and its description differ, the model follows the code:

- **Jacobian guard.** The guard at src/curve_fit.rs:229 parses as
  `(iterations % 2) * num_varying_params == 0`. Its comment speaks of "every
  2*n steps", but the Jacobian is recomputed on every even iteration, and on
  every iteration when no parameter varies (`Control.ExplicitJacobian`,
  `Control.StrategiesAlternate`).
- **Explicit recompute uses the old point.** On an accepted step the explicit
  Jacobian is evaluated before the step is committed (lines 232-236 run before
  256-259). It therefore uses the parameters and model values the step
  started from, not the new ones.
- **Rejected steps are not counted.** A rejected step recomputes the Jacobian
  without adding to `num_func_evaluation`.
- **No varying parameter means no end.** With no varying parameter every step
  is empty, so `rho` is `0 / 0` and every pass is rejected. The rejection
  branch never tests the iteration cap, so the loop never stops
  (`Driver.Iterate`). This assumes that `matrix_solve` returns the empty
  vector for the empty system, the length assumption the model makes of it;
  src/utils.rs is not part of this model, and a solver that panicked on the
  empty system would abort the program instead.
- **`dof` is not checked.** `init` does not require `dof > 0`. With as many
  varying parameters as data points the reduced chi2 is +inf, or NaN for a
  perfect fit. More varying parameters than data points underflows the
  unsigned subtraction at src/curve_fit.rs:87. A build with overflow checks
  panics there, and `init` models that panic as an error; a release build
  wraps instead (see "Left out").
- **R2 of flat data.** Over reals, `calculate_R2` gives 1 for a perfect fit
  only when the data has spread, and a perfect fit of flat data gives NaN.
  In f64 this holds only when the computed mean equals the common value: for
  the data 0.1, 0.1, 0.1 the mean rounds to 0.10000000000000002, the total
  sum of squares is a tiny positive number, and R2 is exactly 1.

## Model

| member | source | states |
|---|---|---|
| `ChiSquared.Chi2` | src/curve_fit.rs:6-8 | chi2 is never negative and is zero exactly when the model reproduces every observation (uncertainties non-zero) |
| `Mask.CountTrue` | src/curve_fit.rs:81-83 | the fold counts varying parameters; never more than the mask length |
| `Mask.CountTrueIsCardinality` | src/curve_fit.rs:81-83 | the count equals the number of positions whose mask entry is true |
| `Fitter.Weights` | src/curve_fit.rs:94-95 | the weighting vector is `1 / sy^2` elementwise and every weight is positive |
| `Fitter.Init` | src/curve_fit.rs:60-125 | each length assertion fails exactly on its mismatch, in source order; more varying parameters than data is the unsigned-subtraction failure; on success the state holds the given data, uncertainties and mask, the initial parameters, the model values there and the parameter gradient there as Jacobian; the varying count is the number of true mask entries, `dof + n_vary = n_data`, the cap is `10 * n_vary`, the counter is 0, the message empty, the errors and covariance zero, and chi2 is zero iff the initial model fits exactly |
| `Fitter.InitEstablishesValid` | src/curve_fit.rs:72-124 | a successful initialisation yields a state whose model values, chi2, reduced chi2, weights and Jacobian shape are consistent |
| `NormalEquations.NormalMatrixSymmetric` | src/curve_fit.rs:133-147 | `J^T W J` is symmetric |
| `Fitter.JtWJ` | src/curve_fit.rs:133-147 | entry (k, l) of the normal matrix is `Σ_i J[i][k] w_i J[i][l]`; the matrix is square over the varying parameters and symmetric |
| `Fitter.Rhs` | src/curve_fit.rs:143 | entry k of the right-hand side is `Σ_i J[i][k] w_i (y_i - f_i)`; it is zero when the model reproduces the data |
| `Fitter.ReducedChi2` | src/curve_fit.rs:195 | with degrees of freedom the reduced chi2 times dof is chi2; with none it is NaN exactly for chi2 zero and +inf for positive chi2 |
| `NormalEquations.Damp` | src/curve_fit.rs:149-153 | damping multiplies each diagonal entry by `1 + lambda` and leaves every off-diagonal entry alone |
| `NormalEquations.DampPreservesSymmetry` | src/curve_fit.rs:149-153 | the damped matrix of a symmetric matrix is symmetric |
| `NormalEquations.DampZeroIsIdentity` | src/curve_fit.rs:149-153 | with lambda 0 the damped system is the Gauss-Newton system |
| `Mask.Scatter` | src/curve_fit.rs:158-166 | the full-length vector holds the k-th solved value at the k-th varying position and the fill value at every fixed position |
| `Mask.Gather` | src/curve_fit.rs:158-166 | reading the varying positions in order gives one value per varying parameter, position by position |
| `Mask.GatherScatter` | src/curve_fit.rs:158-166 | gathering a scattered vector returns the solved values |
| `Mask.ScatterGather` | src/curve_fit.rs:158-166 | scattering the gathered values restores any vector that holds the fill value at the fixed positions |
| `Mask.ScatterWalk` | src/curve_fit.rs:309-318 | the index-walking loop computes exactly the scatter |
| `Fitter.StepParameters` | src/curve_fit.rs:158-166 | the updated parameters keep every fixed parameter and move the varying ones by the solved step in mask order |
| `NormalEquations.PredictedReduction` | src/curve_fit.rs:169-173 | with non-negative damping weights the predicted reduction is at least `delta . b` |
| `NormalEquations.DampingTermNonNegative` | src/curve_fit.rs:171-173 | the damping term `Σ_k delta_k^2 lambdaDiag_k` is never negative |
| `NormalEquations.ZeroStepPredictsNothing` | src/curve_fit.rs:169-173 | a zero step has metric zero |
| `Fitter.GradientMetric` | src/curve_fit.rs:177-182 | `metric_gradient` is the largest `abs(b_k)`: it is one of them and bounds all of them; it is NaN exactly when there is no varying parameter |
| `Fitter.ParameterMetric` | src/curve_fit.rs:184-189 | `metric_parameters` is +inf exactly when a zero parameter moves; it is NaN exactly when every parameter is zero and stays; otherwise it is the largest relative change of a non-zero parameter, one of them and a bound on all of them |
| `ExtFloat.FoldMax` | src/curve_fit.rs:177-189 | the NaN-seeded max fold is NaN exactly when every element is NaN; otherwise it is one of the elements and bounds every non-NaN one |
| `Fitter.Lm` | src/curve_fit.rs:132-208 | the step's normal matrix is the state's `J^T W J` and the step solves the system damped from it with right-hand side `J^T W (y - f)`; fixed parameters keep their values and varying ones move by delta in mask order; the model values, chi2 and reduced chi2 belong to the new parameters; the metrics are those of the step |
| `Fitter.ZeroStepChangesNothing` | src/curve_fit.rs:158-196 | a zero step keeps the parameters, predicts no reduction and reproduces the current chi2 |
| `Control.GainRatioMeaning` | src/curve_fit.rs:222 | `rho` times the predicted reduction is the actual reduction of chi2 when the prediction is non-zero; `rho` is NaN exactly when neither changes |
| `Control.AcceptanceTest` | src/curve_fit.rs:222-224 | `rho > epsilon4` holds exactly when the actual reduction exceeds `epsilon4` times a positive predicted one (below it for a negative prediction); with no predicted reduction a step is accepted exactly when it lowers chi2 |
| `Control.AcceptedStepLowersChi2` | src/curve_fit.rs:222-224 | with a positive metric, an accepted step strictly lowers chi2 |
| `Control.AcceptedStepIsNonZero` | src/curve_fit.rs:222-224 | an accepted step of `lm` has `delta . delta > 0`, so the Broyden division is by a positive number |
| `Damping.AfterAccept` | src/curve_fit.rs:226 | after an accept lambda is the larger of `lambda / 9` and `1e-7` |
| `Damping.AfterReject` | src/curve_fit.rs:289 | after a reject lambda is the smaller of `lambda * 11` and `1e7` |
| `Damping.UpdateStaysInRange` | src/curve_fit.rs:226 | one update keeps lambda inside `[1e-7, 1e7]` |
| `Damping.ScheduleStaysInRange` | src/curve_fit.rs:226-289 | lambda stays inside `[1e-7, 1e7]` over any sequence of accepts and rejects |
| `Control.ExplicitJacobian` | src/curve_fit.rs:229 | the explicit recompute is chosen exactly when no parameter varies or the iteration count is even |
| `Control.StrategiesAlternate` | src/curve_fit.rs:229 | while some parameter varies, consecutive iterations alternate between the two strategies |
| `Broyden.RowUpdateGain` | src/curve_fit.rs:247-252 | one updated row applied to delta gains exactly that row's `diff` |
| `Broyden.BroydenUpdate` | src/curve_fit.rs:244-252 | column i gains `diff * delta_i / (delta . delta)`, and the updated Jacobian applied to delta gives the old product plus `diff` |
| `Broyden.BroydenSecant` | src/curve_fit.rs:240-252 | with `diff = f(new) - f(old) - J delta`, the updated Jacobian maps delta onto `f(new) - f(old)` |
| `Broyden.SecantUpdate` | src/curve_fit.rs:240-252 | with `diff = f(new) - f(old) - J delta`, entry (r, i) of the new Jacobian is `J[r][i] + diff_r delta_i / (delta . delta)`; the shape is kept and the secant condition holds |
| `Control.ConvergenceReason` | src/curve_fit.rs:263-286 | the reason is a criterion that holds, no criterion of higher priority holds, and there is no reason exactly when no criterion holds |
| `Control.CapStopsAcceptedSteps` | src/curve_fit.rs:282-286 | once the iteration count reaches the cap, every accepted step stops the fit |
| `Control.MessagesDistinct` | src/curve_fit.rs:264-283 | the four convergence messages are pairwise different |
| `Control.Transition` | src/curve_fit.rs:222-296 | a reject changes only lambda (up) and the Jacobian (recomputed at the unchanged point) and never stops; an accept commits exactly the step's parameters, model values, chi2 and reduced chi2, lowers lambda, and either recomputes the Jacobian at the old point for `n_vary` evaluations or applies the rank-1 secant update (entry by entry as in the source) for none; the pass stops exactly on an accepted step meeting a criterion, with that criterion's message and the step's normal matrix |
| `Control.TransitionPreservesValid` | src/curve_fit.rs:226-296 | a pass on a consistent step keeps the state consistent and lambda inside its clamp range |
| `Control.Iteration` | src/curve_fit.rs:217-296 | a pass keeps the setup; when it stops, it carries one of the four messages and the normal matrix `J^T W J` of the state it started from |
| `Control.IterationPreservesValid` | src/curve_fit.rs:217-296 | a full pass (`lm` then the transition) keeps the state consistent and lambda inside its clamp range |
| `Control.NothingVaryingRejects` | src/curve_fit.rs:222-296 | when no parameter varies, the step is rejected and the pass continues |
| `Driver.Iterate` | src/curve_fit.rs:213-297 | repeated passes keep the state consistent and lambda in range; a stop happens within the fuel, carries one of the four messages, and records the consistent state its last pass started from: that pass from that state stops with the outcome's state, and the matrix to invert is that state's `J^T W J`, square and symmetric; with no varying parameter the loop never stops, for any number of passes |
| `Driver.VaryingErrors` | src/curve_fit.rs:313-315 | the k-th varying error is `sqrt(cov[k][k] * redchi2)` and is never negative |
| `Driver.Finish` | src/curve_fit.rs:299-319 | the covariance is the inverse of the given normal matrix; fixed parameters get error zero, the i-th parameter at varying slot k gets `sqrt(cov[k][k] * redchi2)`; no error is negative; nothing else changes |
| `Driver.FinishKeepsValid` | src/curve_fit.rs:299-319 | setting the covariance and the errors keeps the state consistent with the model and leaves the setup and lambda unchanged |
| `Driver.Minimize` | src/curve_fit.rs:213-320 | a finished fit is consistent, keeps lambda in range and carries a convergence message; its covariance is the inverse of `J^T W J` at the start of the stopping pass; fixed parameters get error zero and the parameter at varying slot k gets `sqrt(cov[k][k] * redchi2)`; a fit with no varying parameter never finishes |
| `Driver.MinimizeRunsTheLoop` | src/curve_fit.rs:213-297 | `minimize` runs the loop from the initial state: it stops exactly when the loop does, after as many passes, from the same last state and with the same normal matrix, and an unfinished loop is returned as it stands |
| `Driver.MinimizeEndsWithStoppingPass` | src/curve_fit.rs:213-320 | a finished fit took between one pass and the fuel; the pass from its last state stops with the recorded normal matrix, and the result is that pass's state with the covariance and the errors set from it |
| `Determination.TotalSquaresZero` | src/curve_fit.rs:351-357 | the total sum of squares is never negative and is zero exactly for data without spread |
| `Determination.ResidualSquaresZero` | src/curve_fit.rs:355 | the residual sum of squares is never negative and is zero exactly for a perfect fit |
| `Determination.CalculateR2` | src/curve_fit.rs:350-359 | R2 is exactly 1 iff the data has spread and the fit is perfect; it is NaN iff the data is flat and the fit perfect; it is -inf iff the data is flat and the fit not perfect; never +inf; a finite R2 is at most 1 |

## Left out

- Floating point: rounding, overflow, signed zeros and NaN or infinite inputs are not modelled. Values are `real`; f64 special values appear only where listed above.
- `Func1D::for_parameters` and `Func1D::parameter_gradient`: parameters of the model with shape contracts only. src/func1d.rs is not part of this model.
- `matrix_solve`, `LU_decomp` and `LU_matrix_solve` (src/utils.rs), and `f64::sqrt`: parameters with shape contracts only. src/utils.rs is not part of this model. The covariance is modelled as one `invert` call, not as column-by-column LU solves (src/curve_fit.rs:300-306).
- Fitter.Init: requires every uncertainty to be non-zero. A zero uncertainty makes chi2 NaN or infinite and the weight infinite, which the model does not carry through sums.
- Fitter.Init: `DegreesOfFreedomUnderflow` models the panic that a build with overflow checks raises when more parameters vary than there are data points. In a release build `num_data - num_varying_params` wraps (dof near 2^64, reduced chi2 near 0) and `init` succeeds; that is not modelled.
- Determination.CalculateR2: holds over reals. In f64 the mean of flat data can differ from the common value by rounding, so the NaN and -inf outcomes for flat data are not guaranteed there.
- ChiSquared.Chi2: requires non-zero uncertainties for the same reason.
- Control.Transition: requires a non-zero `delta . delta` on accepted steps that take the Broyden branch (odd iteration, some parameter varying). `Control.AcceptedStepIsNonZero` proves this for every step `lm` produces; a hand-made step violating it, where on the Broyden branch Rust would fill the Jacobian with NaN, is not modelled. The recomputing branch never divides and needs no such condition.
- Control.AcceptedStepLowersChi2: assumes a positive metric. The solver is abstract, so a negative metric, possible with an inexact solve, is not excluded. With a negative metric an accepted step raises chi2.
- Driver.Iterate: carries a fuel bound. Termination of `minimize` is not modelled, and the source has no bound when steps keep being rejected.
- Driver.Iterate: states that the last state of a stopped fit has the setup of the initial state and that the pass from it stops, not that every earlier pass, from the initial state on, continued. That follows from its definition but is not stated as a contract.
- `report` (src/curve_fit.rs:323-346): console output only.
- examples/genParabolaData.py: random test-data generation and file output.
- The epsilons and lambda factors are module constants. The source stores them in public fields that only `init` sets.
- `usize` limits: `10 * num_varying_params` and the evaluation counter are unbounded naturals.
- The model function (`Func1D`) is passed alongside the state rather than held by reference; the data, the uncertainties and the mask are fields of the state, held by value.

=== FILE: broyden.dfy ===
/**
 Broyden's rank-1 update of the Jacobian: the cheap alternative to
 re-evaluating the parameter gradient after an accepted step.
 */
module Broyden {
  import opened Vectors

  lemma ScaledQuotient(x: real, y: real, n: real)
    requires n != 0.0
    ensures x * y / n == (x / n) * y
  {
  }

  lemma QuotientTimesDivisor(x: real, n: real)
    requires n != 0.0
    ensures (x / n) * n == x
  {
  }

  function RowUpdate(row: Vector, dr: real, delta: Vector, norm: real): (r: Vector)
    requires |row| == |delta| && norm != 0.0
    ensures |r| == |delta|
    ensures forall i :: 0 <= i < |delta| ==> r[i] == row[i] + dr * delta[i] / norm
    ensures r == Add(row, Scale(dr / norm, delta))
  {
    var r := seq(|delta|, i requires 0 <= i < |delta| => row[i] + dr * delta[i] / norm);
    forall i | 0 <= i < |delta|
      ensures r[i] == Add(row, Scale(dr / norm, delta))[i]
    {
      ScaledQuotient(dr, delta[i], norm);
    }
    r
  }

  /** One row of the update, `row + diff_r * delta / (delta·delta)`, gains
      exactly `diff_r` when applied to `delta`. */
  lemma RowUpdateGain(row: Vector, dr: real, delta: Vector)
    requires |row| == |delta| && Dot(delta, delta) != 0.0
    ensures Dot(RowUpdate(row, dr, delta, Dot(delta, delta)), delta) == Dot(row, delta) + dr
  {
    var norm := Dot(delta, delta);
    QuotientTimesDivisor(dr, norm);
    ScaledGain(row, dr / norm, delta, dr);
  }

  lemma ScaledGain(row: Vector, c: real, delta: Vector, dr: real)
    requires |row| == |delta| && c * Dot(delta, delta) == dr
    ensures Dot(Add(row, Scale(c, delta)), delta) == Dot(row, delta) + dr
  {
    DotAddScaled(row, c, delta, delta);
  }

  /** `J + jacobian_change`, where column i of `jacobian_change` is
      `diff * delta[i] / (delta·delta)`. Applied to `delta`, the updated
      Jacobian gives what the old one gave plus `diff`. */
  function BroydenUpdate(j: Matrix, delta: Vector, diff: Vector): (j': Matrix)
    requires IsMatrix(j, |diff|, |delta|) && Dot(delta, delta) != 0.0
    ensures IsMatrix(j', |diff|, |delta|)
    ensures forall r, i :: 0 <= r < |diff| && 0 <= i < |delta| ==>
              j'[r][i] == j[r][i] + diff[r] * delta[i] / Dot(delta, delta)
    ensures MatVec(j', delta) == Add(MatVec(j, delta), diff)
  {
    var norm := Dot(delta, delta);
    var j' := seq(|diff|, r requires 0 <= r < |diff| => RowUpdate(j[r], diff[r], delta, norm));
    forall r | 0 <= r < |diff|
      ensures Dot(j'[r], delta) == Dot(j[r], delta) + diff[r]
    {
      RowUpdateGain(j[r], diff[r], delta);
    }
    assert forall r :: 0 <= r < |diff| ==> MatVec(j', delta)[r] == Add(MatVec(j, delta), diff)[r];
    j'
  }

  /** The secant condition: with `diff = f(new) - f(old) - J·delta`, the
      updated Jacobian maps the step `delta` onto the observed change of
      the model output, `J'·delta = f(new) - f(old)`. */
  lemma BroydenSecant(j: Matrix, delta: Vector, yOld: Vector, yNew: Vector)
    requires |yOld| == |yNew| && IsMatrix(j, |yOld|, |delta|) && Dot(delta, delta) != 0.0
    ensures MatVec(BroydenUpdate(j, delta, Sub(Sub(yNew, yOld), MatVec(j, delta))), delta)
            == Sub(yNew, yOld)
  {
    var diff := Sub(Sub(yNew, yOld), MatVec(j, delta));
    var lhs := MatVec(BroydenUpdate(j, delta, diff), delta);
    assert forall r :: 0 <= r < |yOld| ==> lhs[r] == Sub(yNew, yOld)[r];
  }

  /** The Broyden branch of `minimize`: `diff = f(new) - f(old) - J·delta`
      and the rank-1 update built from it: column i of the change is
      `diff * delta[i] / (delta·delta)`. */
  function SecantUpdate(j: Matrix, delta: Vector, yOld: Vector, yNew: Vector): (j': Matrix)
    requires |yOld| == |yNew| && IsMatrix(j, |yOld|, |delta|) && Dot(delta, delta) != 0.0
    ensures IsMatrix(j', |yOld|, |delta|)
    ensures var diff := Sub(Sub(yNew, yOld), MatVec(j, delta));
            && (forall r :: 0 <= r < |yOld| ==> diff[r] == yNew[r] - yOld[r] - Dot(j[r], delta))
            && (forall r, i :: 0 <= r < |yOld| && 0 <= i < |delta| ==>
                  j'[r][i] == j[r][i] + diff[r] * delta[i] / Dot(delta, delta))
    ensures MatVec(j', delta) == Sub(yNew, yOld)
  {
    BroydenSecant(j, delta, yOld, yNew);
    BroydenUpdate(j, delta, Sub(Sub(yNew, yOld), MatVec(j, delta)))
  }
}

=== FILE: chi2.dfy ===
/**
 The figure of merit the fit minimizes: the sum of squared residuals, each
 residual scaled by its observation's uncertainty.
 */
module ChiSquared {
  import opened Vectors

  /** Uncertainties must be non-zero for the scaled residuals to be numbers. */
  predicate NonZero(s: Vector)
  {
    forall i :: 0 <= i < |s| ==> s[i] != 0.0
  }

  /** `(y - ymodel) / sy`, elementwise. */
  function ScaledResiduals(y: Vector, ymodel: Vector, sy: Vector): (q: Vector)
    requires |y| == |ymodel| == |sy| && NonZero(sy)
    ensures |q| == |y|
    ensures forall i :: 0 <= i < |y| ==> q[i] == (y[i] - ymodel[i]) / sy[i]
  {
    seq(|y|, i requires 0 <= i < |y| => (y[i] - ymodel[i]) / sy[i])
  }

  lemma QuotientZero(a: real, s: real)
    requires s != 0.0
    ensures a / s == 0.0 <==> a == 0.0
  {
    if a / s == 0.0 {
      assert a == (a / s) * s;
    }
  }

  /** A scaled residual vanishes exactly where the model meets the observation. */
  lemma ScaledResidualsZero(y: Vector, ymodel: Vector, sy: Vector)
    requires |y| == |ymodel| == |sy| && NonZero(sy)
    ensures IsZero(ScaledResiduals(y, ymodel, sy)) <==> y == ymodel
  {
    var q := ScaledResiduals(y, ymodel, sy);
    forall i | 0 <= i < |y|
      ensures q[i] == 0.0 <==> y[i] == ymodel[i]
    {
      QuotientZero(y[i] - ymodel[i], sy[i]);
    }
    if IsZero(q) {
      assert forall i :: 0 <= i < |y| ==> y[i] == ymodel[i];
    }
  }

  /** `chi2(y, ymodel, sy)`: the sum of the squared scaled residuals. It is
      never negative, and it is zero exactly when the model reproduces every
      observation. */
  function Chi2(y: Vector, ymodel: Vector, sy: Vector): (r: real)
    requires |y| == |ymodel| == |sy| && NonZero(sy)
    ensures r >= 0.0
    ensures r == 0.0 <==> y == ymodel
  {
    var q := ScaledResiduals(y, ymodel, sy);
    DotSelfPositive(q);
    ScaledResidualsZero(y, ymodel, sy);
    Dot(q, q)
  }
}

=== FILE: collaborators.dfy ===
/**
 The code the fitter calls but that is not part of this model: the model
 function `Func1D` (evaluation and its finite-difference parameter gradient)
 and the linear-algebra routines `matrix_solve`, `LU_decomp` /
 `LU_matrix_solve` and `f64::sqrt`. Each becomes a function-valued field; what
 the fitter relies on is only the shape of what they return, stated as the
 contracts below.
 */
module Collaborators {
  import opened Vectors
  import opened Mask

  /** A one-dimensional model `f(x; p)` sampled on a fixed domain. */
  datatype Func1D = Func1D(
    domain: Vector,
    parameters: Vector,
    forParameters: Vector -> Vector,
    parameterGradient: (Vector, seq<bool>, Vector) -> Matrix)

  /** The model gives one output per domain point, whatever the parameters. */
  ghost predicate OutputsMatchDomain(f: Func1D)
  {
    forall p :: |f.forParameters(p)| == |f.domain|
  }

  /** The gradient has one row per domain point and one column per varying
      parameter. */
  ghost predicate GradientMatchesMask(f: Func1D)
  {
    forall p, vary, ymodel :: IsMatrix(f.parameterGradient(p, vary, ymodel), |f.domain|, CountTrue(vary))
  }

  ghost predicate WellShaped(f: Func1D)
  {
    OutputsMatchDomain(f) && GradientMatchesMask(f)
  }

  /** `matrix_solve(A, b)`, the inverse computed column by column from an LU
      decomposition, and the square root. */
  datatype Numerics = Numerics(
    matrixSolve: (Matrix, Vector) -> Vector,
    invert: Matrix -> Matrix,
    root: real -> real)

  predicate Square(a: Matrix)
  {
    IsMatrix(a, |a|, |a|)
  }

  ghost predicate SolverShaped(n: Numerics)
  {
    && (forall a, b :: |n.matrixSolve(a, b)| == |b|)
    && (forall a :: Square(a) ==> |n.invert(a)| == |a| && Square(n.invert(a)))
    && (forall x :: x >= 0.0 ==> n.root(x) >= 0.0)
  }
}

=== FILE: control.dfy ===
/**
 One pass of the `minimize` loop as a pure transition: given the state and
 the step `lm` produced for it, decide acceptance, update lambda and the
 Jacobian, commit the step, and test the convergence criteria in their fixed
 order.
 */
module Control {
  import opened Vectors
  import opened ExtFloat
  import opened Mask
  import opened ChiSquared
  import opened Damping
  import opened Broyden
  import opened Collaborators
  import opened Fitter

  const Epsilon1: real := 0.001
  const Epsilon2: real := 0.001
  const Epsilon3: real := 0.1
  const Epsilon4: real := 0.1

  /** The gain ratio `rho = (chi2 - chi2_step) / metric`, an f64 division. */
  function GainRatio(chi2: real, step: MinimizationStep): F64
  {
    Div(chi2 - step.chi2, step.metric)
  }

  /** `rho` is the actual reduction of chi2 over the predicted one, and NaN
      when neither changes. */
  lemma GainRatioMeaning(chi2: real, step: MinimizationStep)
    ensures step.metric != 0.0 ==>
              GainRatio(chi2, step).Finite? && GainRatio(chi2, step).value * step.metric == chi2 - step.chi2
    ensures GainRatio(chi2, step) == NaN <==> step.metric == 0.0 && chi2 == step.chi2
  {
  }

  /** `rho > epsilon4`; a NaN ratio (from `0 / 0`) is never accepted. */
  predicate Accepted(chi2: real, step: MinimizationStep)
  {
    Gt(GainRatio(chi2, step), Epsilon4)
  }

  lemma QuotientAbove(a: real, b: real, c: real)
    requires b != 0.0
    ensures b > 0.0 ==> (a / b > c <==> a > c * b)
    ensures b < 0.0 ==> (a / b > c <==> a < c * b)
  {
    var q := a / b;
    assert a == q * b;
    assert q * b - c * b == (q - c) * b;
  }

  /** The acceptance test without the division: the actual reduction must
      exceed `epsilon4` times the predicted one (with the inequality turned
      round for a negative prediction); with no predicted reduction a step is
      accepted exactly when it lowers chi2. */
  lemma AcceptanceTest(chi2: real, step: MinimizationStep)
    ensures step.metric > 0.0 ==> (Accepted(chi2, step) <==> chi2 - step.chi2 > Epsilon4 * step.metric)
    ensures step.metric < 0.0 ==> (Accepted(chi2, step) <==> chi2 - step.chi2 < Epsilon4 * step.metric)
    ensures step.metric == 0.0 ==> (Accepted(chi2, step) <==> chi2 > step.chi2)
  {
    if step.metric != 0.0 {
      QuotientAbove(chi2 - step.chi2, step.metric, Epsilon4);
    }
  }

  /** With a positive predicted reduction, an accepted step strictly lowers chi2. */
  lemma AcceptedStepLowersChi2(chi2: real, step: MinimizationStep)
    requires step.metric > 0.0 && Accepted(chi2, step)
    ensures step.chi2 < chi2
  {
    var q := (chi2 - step.chi2) / step.metric;
    assert q > Epsilon4;
    assert chi2 - step.chi2 == q * step.metric;
  }

  /** The guard `iterations % 2 * num_varying_params == 0`, which Rust parses as
      `(iterations % 2) * num_varying_params == 0`: the Jacobian is recomputed
      on even iterations, and on every iteration when nothing varies. */
  function ExplicitJacobian(iterations: nat, nvp: nat): (r: bool)
    ensures r <==> nvp == 0 || iterations % 2 == 0
  {
    (iterations % 2) * nvp == 0
  }

  /** While something varies, accepted steps on consecutive iterations
      alternate between the explicit and the Broyden update. */
  lemma StrategiesAlternate(iterations: nat, nvp: nat)
    requires nvp > 0
    ensures ExplicitJacobian(iterations, nvp) != ExplicitJacobian(iterations + 1, nvp)
  {
  }

  /** The convergence criteria, in the order `minimize` tests them. */
  datatype Criterion = GradientConverged | ParametersConverged | Chi2Converged | MaxIterationsReached

  function Rank(c: Criterion): nat
  {
    match c
    case GradientConverged => 0
    case ParametersConverged => 1
    case Chi2Converged => 2
    case MaxIterationsReached => 3
  }

  function Message(c: Criterion): string
  {
    match c
    case GradientConverged => "Gradient converged"
    case ParametersConverged => "Parameters converged"
    case Chi2Converged => "Chi2 converged"
    case MaxIterationsReached => "Reached max. number of iterations"
  }

  /** Each reason has its own message. */
  lemma MessagesDistinct(c: Criterion, d: Criterion)
    requires c != d
    ensures Message(c) != Message(d)
  {
    assert |Message(c)| != |Message(d)|;
  }

  /** The messages a stopped fit can carry. */
  predicate IsConvergenceMessage(s: string)
  {
    exists c: Criterion :: s == Message(c)
  }

  /** Whether criterion `c` holds for an accepted step (comparisons with NaN are false). */
  predicate Holds(c: Criterion, step: MinimizationStep, iterations: nat, maxIterations: nat)
  {
    match c
    case GradientConverged => Lt(step.metricGradient, Epsilon1)
    case ParametersConverged => Lt(step.metricParameters, Epsilon2)
    case Chi2Converged => Lt(step.redchi2, Epsilon3)
    case MaxIterationsReached => iterations >= maxIterations
  }

  datatype Option<T> = None | Some(value: T)

  /** The first criterion, in rank order, that holds; none if no criterion holds. */
  function ConvergenceReason(step: MinimizationStep, iterations: nat, maxIterations: nat): (r: Option<Criterion>)
    ensures r.Some? ==> Holds(r.value, step, iterations, maxIterations)
    ensures r.Some? ==> forall c :: Rank(c) < Rank(r.value) ==> !Holds(c, step, iterations, maxIterations)
    ensures r.None? <==> forall c :: !Holds(c, step, iterations, maxIterations)
  {
    if Holds(GradientConverged, step, iterations, maxIterations) then Some(GradientConverged)
    else if Holds(ParametersConverged, step, iterations, maxIterations) then Some(ParametersConverged)
    else if Holds(Chi2Converged, step, iterations, maxIterations) then Some(Chi2Converged)
    else if Holds(MaxIterationsReached, step, iterations, maxIterations) then Some(MaxIterationsReached)
    else None
  }

  /** Once the iteration count reaches the cap, an accepted step always stops the fit. */
  lemma CapStopsAcceptedSteps(step: MinimizationStep, iterations: nat, maxIterations: nat)
    requires iterations >= maxIterations
    ensures ConvergenceReason(step, iterations, maxIterations).Some?
  {
    assert Holds(MaxIterationsReached, step, iterations, maxIterations);
  }

  /** The outcome of one pass: keep iterating, or stop with the matrix whose
      inverse is the parameter covariance. */
  datatype Pass = Continue(state: Minimizer) | Stop(state: Minimizer, inverseCov: Matrix)

  /** The fields that describe the current fit. */
  predicate SameFit(a: Minimizer, b: Minimizer)
  {
    && a.minimizerParameters == b.minimizerParameters
    && a.minimizerYmodel == b.minimizerYmodel
    && a.chi2 == b.chi2
    && a.redchi2 == b.redchi2
  }

  /** The data, the mask and the counts derived from them, which nothing
      after `init` changes. */
  predicate SameSetupExceptErrors(a: Minimizer, b: Minimizer)
  {
    && a.y == b.y && a.sy == b.sy && a.varyParameter == b.varyParameter
    && a.weightingMatrix == b.weightingMatrix
    && a.maxIterations == b.maxIterations && a.numVaryingParams == b.numVaryingParams
    && a.numParams == b.numParams && a.numData == b.numData && a.dof == b.dof
  }

  /** The bookkeeping no pass of the loop ever changes: the setup, and the
      covariance and errors, which only the tail of `minimize` sets. */
  predicate SameSetup(a: Minimizer, b: Minimizer)
  {
    && SameSetupExceptErrors(a, b)
    && a.parameterCovMatrix == b.parameterCovMatrix && a.parameterErrors == b.parameterErrors
  }

  /** The shapes a step from `lm` has for state `m`. */
  predicate StepFits(m: Minimizer, step: MinimizationStep)
  {
    && |step.parameters| == m.numParams
    && |step.delta| == m.numVaryingParams
    && |step.ymodel| == m.numData
    && IsMatrix(step.jtwj, m.numVaryingParams, m.numVaryingParams)
  }

  /** The body of the `minimize` loop after `lm`, with `iterations` already
      incremented. An accepted step never has a zero `delta` (see
      `AcceptedStepIsNonZero`), so the Broyden division is by a positive norm.

      Nothing outside the fit, lambda, the Jacobian and the counter changes.
      Lambda falls by `lambda_DOWN_fac` after an accept and rises by
      `lambda_UP_fac` after a reject, within the clamp range. A rejected step
      changes only lambda and the Jacobian, which is recomputed at the
      unchanged parameters. An accepted step commits exactly the step's
      parameters, model values, chi2 and reduced chi2; the Jacobian is then
      either recomputed at the parameters before the commit, costing one
      evaluation per varying parameter, or updated by Broyden's rule for free,
      consistently with the observed change (the secant condition). The loop
      stops exactly on an accepted step meeting a criterion, with that
      criterion's message and the step's normal matrix. */
  function Transition(m: Minimizer, iterations: nat, step: MinimizationStep, model: Func1D): (r: Pass)
    requires Shaped(m) && StepFits(m, step)
    requires Accepted(m.chi2, step) && !ExplicitJacobian(iterations, m.numVaryingParams) ==> Dot(step.delta, step.delta) != 0.0
    ensures SameSetup(r.state, m)
    ensures Accepted(m.chi2, step) ==> r.state.lambda == AfterAccept(m.lambda)
    ensures !Accepted(m.chi2, step) ==> r.state.lambda == AfterReject(m.lambda)
    ensures !Accepted(m.chi2, step) ==>
              && r.Continue?
              && SameFit(r.state, m)
              && r.state.numFuncEvaluation == m.numFuncEvaluation
              && r.state.convergenceMessage == m.convergenceMessage
              && r.state.jacobian == model.parameterGradient(m.minimizerParameters, m.varyParameter, m.minimizerYmodel)
    ensures Accepted(m.chi2, step) ==>
              && r.state.minimizerParameters == step.parameters
              && r.state.minimizerYmodel == step.ymodel
              && r.state.chi2 == step.chi2
              && r.state.redchi2 == step.redchi2
    ensures Accepted(m.chi2, step) && ExplicitJacobian(iterations, m.numVaryingParams) ==>
              && r.state.jacobian == model.parameterGradient(m.minimizerParameters, m.varyParameter, m.minimizerYmodel)
              && r.state.numFuncEvaluation == m.numFuncEvaluation + m.numVaryingParams
    ensures Accepted(m.chi2, step) && !ExplicitJacobian(iterations, m.numVaryingParams) ==>
              && r.state.jacobian == SecantUpdate(m.jacobian, step.delta, m.minimizerYmodel, step.ymodel)
              && IsMatrix(r.state.jacobian, m.numData, m.numVaryingParams)
              && MatVec(r.state.jacobian, step.delta) == Sub(step.ymodel, m.minimizerYmodel)
              && r.state.numFuncEvaluation == m.numFuncEvaluation
    ensures r.Stop? <==> Accepted(m.chi2, step) && ConvergenceReason(step, iterations, m.maxIterations).Some?
    ensures r.Stop? ==>
              && r.state.convergenceMessage == Message(ConvergenceReason(step, iterations, m.maxIterations).value)
              && r.inverseCov == step.jtwj
    ensures r.Continue? ==> r.state.convergenceMessage == m.convergenceMessage
  {
    if Accepted(m.chi2, step) then
      var explicit := ExplicitJacobian(iterations, m.numVaryingParams);
      var jacobian :=
        if explicit then model.parameterGradient(m.minimizerParameters, m.varyParameter, m.minimizerYmodel)
        else SecantUpdate(m.jacobian, step.delta, m.minimizerYmodel, step.ymodel);
      var next := m.(
        lambda := AfterAccept(m.lambda),
        jacobian := jacobian,
        numFuncEvaluation := if explicit then m.numFuncEvaluation + m.numVaryingParams else m.numFuncEvaluation,
        minimizerParameters := step.parameters,
        minimizerYmodel := step.ymodel,
        chi2 := step.chi2,
        redchi2 := step.redchi2);
      match ConvergenceReason(step, iterations, m.maxIterations)
      case Some(c) => Stop(next.(convergenceMessage := Message(c)), step.jtwj)
      case None => Continue(next)
    else
      Continue(m.(
        lambda := AfterReject(m.lambda),
        jacobian := model.parameterGradient(m.minimizerParameters, m.varyParameter, m.minimizerYmodel)))
  }

  /** A step with zero `delta` is always rejected: it leaves chi2 unchanged and
      predicts no reduction, so `rho` is `0 / 0`, NaN. Hence an accepted step
      has `delta · delta > 0`. */
  lemma AcceptedStepIsNonZero(m: Minimizer, model: Func1D, numerics: Numerics)
    requires Valid(m, model) && OutputsMatchDomain(model) && SolverShaped(numerics)
    ensures Accepted(m.chi2, Lm(m, model, numerics)) ==>
              Dot(Lm(m, model, numerics).delta, Lm(m, model, numerics).delta) > 0.0
  {
    var step := Lm(m, model, numerics);
    DotSelfPositive(step.delta);
    if IsZero(step.delta) {
      ZeroStepChangesNothing(m, model, numerics);
      assert GainRatio(m.chi2, step) == NaN;
    }
  }

  /** One full pass: `lm`, then the transition. */
  function Iteration(m: Minimizer, iterations: nat, model: Func1D, numerics: Numerics): (r: Pass)
    requires Valid(m, model) && OutputsMatchDomain(model) && SolverShaped(numerics)
    ensures SameSetup(r.state, m)
    ensures r.Stop? ==>
              && IsConvergenceMessage(r.state.convergenceMessage)
              && r.inverseCov == JtWJ(m)
  {
    var step := Lm(m, model, numerics);
    AcceptedStepIsNonZero(m, model, numerics);
    assert StepFits(m, step);
    var r := Transition(m, iterations + 1, step, model);
    assert r.Stop? ==> r.state.convergenceMessage == Message(ConvergenceReason(step, iterations + 1, m.maxIterations).value);
    r
  }

  /** What `lm` guarantees about a step's fit: the model values, chi2 and
      reduced chi2 belong to the step's parameters. */
  predicate StepConsistent(m: Minimizer, step: MinimizationStep, model: Func1D)
    requires Shaped(m) && StepFits(m, step)
  {
    && step.ymodel == model.forParameters(step.parameters)
    && step.chi2 == Chi2(m.y, step.ymodel, m.sy)
    && step.redchi2 == ReducedChi2(step.chi2, m.dof)
  }

  /** A transition on a consistent step keeps the state consistent with the
      model, and lambda within its clamp range. */
  lemma TransitionPreservesValid(m: Minimizer, iterations: nat, step: MinimizationStep, model: Func1D)
    requires Valid(m, model) && GradientMatchesMask(model) && StepFits(m, step)
    requires Accepted(m.chi2, step) && !ExplicitJacobian(iterations, m.numVaryingParams) ==> Dot(step.delta, step.delta) != 0.0
    requires StepConsistent(m, step, model)
    ensures Valid(Transition(m, iterations, step, model).state, model)
    ensures InRange(m.lambda) ==> InRange(Transition(m, iterations, step, model).state.lambda)
  {
    var s := Transition(m, iterations, step, model).state;
    if InRange(m.lambda) {
      UpdateStaysInRange(m.lambda, Accepted(m.chi2, step));
    }
    assert IsMatrix(s.jacobian, m.numData, m.numVaryingParams) by {
      if !Accepted(m.chi2, step) || ExplicitJacobian(iterations, m.numVaryingParams) {
        assert s.jacobian == model.parameterGradient(m.minimizerParameters, m.varyParameter, m.minimizerYmodel);
      }
    }
    assert Shaped(s);
  }

  /** A full pass keeps the state consistent with the model, and lambda within
      its clamp range. */
  lemma IterationPreservesValid(m: Minimizer, iterations: nat, model: Func1D, numerics: Numerics)
    requires Valid(m, model) && WellShaped(model) && SolverShaped(numerics)
    ensures Valid(Iteration(m, iterations, model, numerics).state, model)
    ensures InRange(m.lambda) ==> InRange(Iteration(m, iterations, model, numerics).state.lambda)
  {
    var step := Lm(m, model, numerics);
    AcceptedStepIsNonZero(m, model, numerics);
    assert StepFits(m, step);
    TransitionPreservesValid(m, iterations + 1, step, model);
  }

  /** With no varying parameter every pass is rejected: the step is empty. */
  lemma NothingVaryingRejects(m: Minimizer, iterations: nat, model: Func1D, numerics: Numerics)
    requires Valid(m, model) && OutputsMatchDomain(model) && SolverShaped(numerics)
    ensures m.numVaryingParams == 0 ==> !Accepted(m.chi2, Lm(m, model, numerics))
    ensures m.numVaryingParams == 0 ==> Iteration(m, iterations, model, numerics).Continue?
  {
    if m.numVaryingParams == 0 {
      AcceptedStepIsNonZero(m, model, numerics);
    }
  }
}

=== FILE: damping.dfy ===
/**
 The damping parameter lambda of the Levenberg-Marquardt iteration and its
 schedule: divided by `lambda_DOWN_fac` after an accepted step and multiplied
 by `lambda_UP_fac` after a rejected one, clamped to `[1e-7, 1e7]`.
 */
module Damping {

  const LambdaUpFac: real := 11.0
  const LambdaDownFac: real := 9.0
  const LambdaMin: real := 0.0000001
  const LambdaMax: real := 10000000.0

  predicate InRange(damping: real)
  {
    LambdaMin <= damping <= LambdaMax
  }

  /** `(lambda / lambda_DOWN_fac).max(1e-7)`: the larger of the reduced
      lambda and the lower clamp. */
  function AfterAccept(damping: real): (r: real)
    ensures r >= damping / LambdaDownFac && r >= LambdaMin
    ensures r == damping / LambdaDownFac || r == LambdaMin
  {
    if damping / LambdaDownFac >= LambdaMin then damping / LambdaDownFac else LambdaMin
  }

  /** `(lambda * lambda_UP_fac).min(1e7)`: the smaller of the increased
      lambda and the upper clamp. */
  function AfterReject(damping: real): (r: real)
    ensures r <= damping * LambdaUpFac && r <= LambdaMax
    ensures r == damping * LambdaUpFac || r == LambdaMax
  {
    if damping * LambdaUpFac <= LambdaMax then damping * LambdaUpFac else LambdaMax
  }

  /** One schedule update; `accepted` says which branch the pass took. */
  function Update(damping: real, accepted: bool): real
  {
    if accepted then AfterAccept(damping) else AfterReject(damping)
  }

  /** A single update keeps lambda inside the clamp range. */
  lemma UpdateStaysInRange(damping: real, accepted: bool)
    requires InRange(damping)
    ensures InRange(Update(damping, accepted))
  {
  }

  /** Lambda after a whole sequence of accept (`true`) / reject (`false`) decisions. */
  function AfterDecisions(damping: real, decisions: seq<bool>): real
    decreases |decisions|
  {
    if |decisions| == 0 then damping
    else Update(AfterDecisions(damping, decisions[..|decisions| - 1]), decisions[|decisions| - 1])
  }

  /** Started inside `[1e-7, 1e7]`, lambda stays there whatever the fit does. */
  lemma {:induction false} ScheduleStaysInRange(damping: real, decisions: seq<bool>)
    requires InRange(damping)
    ensures InRange(AfterDecisions(damping, decisions))
    decreases |decisions|
  {
    if |decisions| > 0 {
      var n := |decisions| - 1;
      ScheduleStaysInRange(damping, decisions[..n]);
      UpdateStaysInRange(AfterDecisions(damping, decisions[..n]), decisions[n]);
    }
  }
}

=== FILE: determination.dfy ===
/**
 The coefficient of determination `R2 = 1 - SS_res / SS_tot` of a fit
 (`calculate_R2`), with the f64 outcomes of its division: for data without
 spread `SS_tot` is zero and the quotient is NaN or an infinity.
 */
module Determination {
  import opened Vectors
  import opened ExtFloat

  function Sum(y: Vector): real
    decreases |y|
  {
    if |y| == 0 then 0.0 else y[0] + Sum(y[1..])
  }

  /** Every observation has the same value: the data has no spread. */
  predicate Flat(y: Vector)
  {
    forall i :: 0 <= i < |y| ==> y[i] == y[0]
  }

  function Constant(n: nat, c: real): (r: Vector)
    ensures |r| == n
    ensures forall i :: 0 <= i < n ==> r[i] == c
  {
    seq(n, _ => c)
  }

  lemma {:induction false} SumOfConstant(y: Vector, c: real)
    requires forall i :: 0 <= i < |y| ==> y[i] == c
    ensures Sum(y) == |y| as real * c
    decreases |y|
  {
    if |y| > 0 {
      SumOfConstant(y[1..], c);
      assert Sum(y) == c + (|y| - 1) as real * c;
    }
  }

  lemma CancelFactor(n: real, c: real)
    requires n != 0.0
    ensures (n * c) / n == c
  {
  }

  /** The mean `sum / len`; unused when there is no data (the loop of
      `calculate_R2` then runs no iteration). */
  function Mean(y: Vector): real
  {
    if |y| == 0 then 0.0 else Sum(y) / |y| as real
  }

  /** `SS_tot`, the squared deviation of the data from its mean. */
  function TotalSquares(y: Vector): real
  {
    var d := Sub(y, Constant(|y|, Mean(y)));
    Dot(d, d)
  }

  /** `SS_res`, the squared deviation of the model from the data. */
  function ResidualSquares(y: Vector, ymodel: Vector): real
    requires |y| == |ymodel|
  {
    var d := Sub(y, ymodel);
    Dot(d, d)
  }

  /** The mean of flat data is its common value. */
  lemma FlatMean(y: Vector)
    requires Flat(y) && |y| > 0
    ensures Mean(y) == y[0]
  {
    var n := |y| as real;
    SumOfConstant(y, y[0]);
    assert Sum(y) == n * y[0];
    calc {
      Mean(y);
      Sum(y) / n;
      (n * y[0]) / n;
      { CancelFactor(n, y[0]); }
      y[0];
    }
  }

  /** Data has spread exactly when it is not flat. */
  lemma TotalSquaresZero(y: Vector)
    ensures TotalSquares(y) >= 0.0
    ensures TotalSquares(y) == 0.0 <==> Flat(y)
  {
    var mean := Mean(y);
    var d := Sub(y, Constant(|y|, mean));
    DotSelfPositive(d);
    if Flat(y) && |y| > 0 {
      FlatMean(y);
      assert forall i :: 0 <= i < |y| ==> d[i] == y[i] - mean;
    }
    if IsZero(d) && |y| > 0 {
      assert forall i :: 0 <= i < |y| ==> y[i] == mean;
    }
  }

  lemma ResidualSquaresZero(y: Vector, ymodel: Vector)
    requires |y| == |ymodel|
    ensures ResidualSquares(y, ymodel) >= 0.0
    ensures ResidualSquares(y, ymodel) == 0.0 <==> y == ymodel
  {
    var d := Sub(y, ymodel);
    DotSelfPositive(d);
    if IsZero(d) {
      assert forall i :: 0 <= i < |y| ==> y[i] == ymodel[i];
    }
  }

  lemma QuotientOfPositive(res: real, tot: real)
    requires res >= 0.0 && tot >= 0.0
    ensures tot > 0.0 ==> res / tot >= 0.0
    ensures tot > 0.0 ==> (res / tot == 0.0 <==> res == 0.0)
  {
    if tot > 0.0 && res / tot == 0.0 {
      assert res == (res / tot) * tot;
    }
  }

  /** `calculate_R2`. A perfect fit of data with spread scores exactly 1 and
      only it does; every other finite score is below 1. Flat data gives NaN
      for a perfect fit and -inf otherwise; +inf never occurs. */
  function CalculateR2(y: Vector, ymodel: Vector): (r: F64)
    requires |y| == |ymodel|
    ensures r == Finite(1.0) <==> !Flat(y) && y == ymodel
    ensures r == NaN <==> Flat(y) && y == ymodel
    ensures r == NegInf <==> Flat(y) && y != ymodel
    ensures r != PosInf
    ensures r.Finite? ==> r.value <= 1.0
  {
    var res := ResidualSquares(y, ymodel);
    var tot := TotalSquares(y);
    TotalSquaresZero(y);
    ResidualSquaresZero(y, ymodel);
    QuotientOfPositive(res, tot);
    OneMinus(Div(res, tot))
  }
}

=== FILE: driver.dfy ===
/**
 The `minimize` loop and what follows it: passes are repeated until one
 stops the fit; the covariance matrix is then inverted from the last step's
 normal matrix and the parameter errors are placed along the variation mask.

 The loop of the source has no bound (a rejected step never tests the
 iteration cap), so the driver carries an explicit fuel: `OutOfFuel` means
 the source would still be iterating.
 */
module Driver {
  import opened Vectors
  import opened ExtFloat
  import opened Mask
  import opened Damping
  import opened Collaborators
  import opened Fitter
  import opened Control

  /** How the loop ended. A stopped fit records the state its last pass
      started from (`before`), whose normal matrix the covariance inverts. */
  datatype Outcome =
    | Converged(state: Minimizer, iterations: nat, inverseCov: Matrix, before: Minimizer)
    | OutOfFuel(state: Minimizer, iterations: nat)

  /** Passes of the loop, starting after `iterations` passes, for at most
      `fuel` further passes. */
  function Iterate(m: Minimizer, iterations: nat, model: Func1D, numerics: Numerics, fuel: nat): (o: Outcome)
    requires Valid(m, model) && WellShaped(model) && SolverShaped(numerics)
    ensures Valid(o.state, model) && SameSetup(o.state, m)
    ensures InRange(m.lambda) ==> InRange(o.state.lambda)
    ensures o.OutOfFuel? ==> o.iterations == iterations + fuel
    ensures m.numVaryingParams == 0 ==> o.OutOfFuel?
    ensures o.Converged? ==>
              && iterations < o.iterations <= iterations + fuel
              && IsConvergenceMessage(o.state.convergenceMessage)
              && Valid(o.before, model) && SameSetup(o.before, m)
              && Iteration(o.before, o.iterations - 1, model, numerics) == Stop(o.state, o.inverseCov)
              && o.inverseCov == JtWJ(o.before)
              && IsMatrix(o.inverseCov, m.numVaryingParams, m.numVaryingParams) && Symmetric(o.inverseCov)
    decreases fuel
  {
    if fuel == 0 then OutOfFuel(m, iterations)
    else
      IterationPreservesValid(m, iterations, model, numerics);
      NothingVaryingRejects(m, iterations, model, numerics);
      match Iteration(m, iterations, model, numerics)
      case Stop(s, inverseCov) =>
        Converged(s, iterations + 1, inverseCov, m)
      case Continue(s) =>
        Iterate(s, iterations + 1, model, numerics, fuel - 1)
  }

  /** The error of the k-th varying parameter, `sqrt(cov[k][k] * redchi2)`. */
  function VaryingErrors(cov: Matrix, redchi2: F64, nvp: nat, root: real -> real): (r: seq<F64>)
    requires IsMatrix(cov, nvp, nvp)
    requires forall x :: x >= 0.0 ==> root(x) >= 0.0
    ensures |r| == nvp
    ensures forall k :: 0 <= k < nvp ==> r[k] == Sqrt(Mul(Finite(cov[k][k]), redchi2), root)
    ensures forall k :: 0 <= k < nvp ==> r[k] != NegInf && (r[k].Finite? ==> r[k].value >= 0.0)
  {
    seq(nvp, k requires 0 <= k < nvp => Sqrt(Mul(Finite(cov[k][k]), redchi2), root))
  }

  /** The tail of `minimize`: the covariance matrix is the inverse of the
      stopping step's normal matrix, and each varying parameter receives the
      error `sqrt(cov[k][k] * redchi2)` of its slot k in mask order, each
      fixed parameter the error zero. Errors are never negative: a negative
      variance gives NaN. */
  function Finish(m: Minimizer, inverseCov: Matrix, numerics: Numerics): (r: Minimizer)
    requires Shaped(m) && IsMatrix(inverseCov, m.numVaryingParams, m.numVaryingParams)
    requires SolverShaped(numerics)
    ensures r.parameterCovMatrix == numerics.invert(inverseCov)
    ensures IsMatrix(r.parameterCovMatrix, m.numVaryingParams, m.numVaryingParams)
    ensures |r.parameterErrors| == m.numParams
    ensures forall i :: 0 <= i < m.numParams && !m.varyParameter[i] ==> r.parameterErrors[i] == Finite(0.0)
    ensures forall i :: 0 <= i < m.numParams && m.varyParameter[i] ==>
              var k := CountTrue(m.varyParameter[..i]);
              k < m.numVaryingParams &&
              r.parameterErrors[i] == Sqrt(Mul(Finite(r.parameterCovMatrix[k][k]), m.redchi2), numerics.root)
    ensures forall i :: 0 <= i < m.numParams ==>
              r.parameterErrors[i] != NegInf && (r.parameterErrors[i].Finite? ==> r.parameterErrors[i].value >= 0.0)
    ensures r == m.(parameterCovMatrix := r.parameterCovMatrix, parameterErrors := r.parameterErrors)
  {
    assert Square(inverseCov);
    var cov := numerics.invert(inverseCov);
    var errors := VaryingErrors(cov, m.redchi2, m.numVaryingParams, numerics.root);
    m.(parameterCovMatrix := cov, parameterErrors := Scatter(m.varyParameter, errors, Finite(0.0)))
  }

  /** Setting the covariance and the errors leaves the fit itself alone. */
  lemma FinishKeepsValid(m: Minimizer, inverseCov: Matrix, model: Func1D, numerics: Numerics)
    requires Valid(m, model) && IsMatrix(inverseCov, m.numVaryingParams, m.numVaryingParams)
    requires SolverShaped(numerics)
    ensures Valid(Finish(m, inverseCov, numerics), model)
    ensures SameSetupExceptErrors(Finish(m, inverseCov, numerics), m)
    ensures Finish(m, inverseCov, numerics).lambda == m.lambda
  {
    var f := Finish(m, inverseCov, numerics);
    assert SameFit(f, m) && f.jacobian == m.jacobian;
  }

  /** `minimize` from a freshly initialised state: the passes, then the
      covariance and errors once a criterion stops the fit. The covariance is
      the inverse of `J^T W J` at the start of the stopping pass, and each
      varying parameter's error is `sqrt(cov[k][k] * redchi2)` of its slot. */
  function Minimize(m: Minimizer, model: Func1D, numerics: Numerics, fuel: nat): (o: Outcome)
    requires Valid(m, model) && WellShaped(model) && SolverShaped(numerics)
    ensures Valid(o.state, model) && SameSetupExceptErrors(o.state, m)
    ensures InRange(m.lambda) ==> InRange(o.state.lambda)
    ensures m.numVaryingParams == 0 ==> o.OutOfFuel?
    ensures o.Converged? ==> IsConvergenceMessage(o.state.convergenceMessage)
    ensures o.Converged? ==> Valid(o.before, model) && SameSetup(o.before, m)
    ensures o.Converged? ==> o.inverseCov == JtWJ(o.before) && Symmetric(o.inverseCov)
    ensures o.Converged? ==> o.state.parameterCovMatrix == numerics.invert(JtWJ(o.before))
    ensures o.Converged? ==>
              forall i :: 0 <= i < m.numParams && !m.varyParameter[i] ==> o.state.parameterErrors[i] == Finite(0.0)
    ensures o.Converged? ==>
              forall i :: 0 <= i < m.numParams && m.varyParameter[i] ==>
                var k := CountTrue(m.varyParameter[..i]);
                k < m.numVaryingParams &&
                o.state.parameterErrors[i] == Sqrt(Mul(Finite(o.state.parameterCovMatrix[k][k]), o.state.redchi2), numerics.root)
  {
    match Iterate(m, 0, model, numerics, fuel)
    case Converged(s, iterations, inverseCov, before) =>
      FinishKeepsValid(s, inverseCov, model, numerics);
      Converged(Finish(s, inverseCov, numerics), iterations, inverseCov, before)
    case OutOfFuel(s, iterations) => OutOfFuel(s, iterations)
  }

  /** `minimize` runs the loop from the initial state: it converges exactly
      when the loop does, after as many passes, from the same last state,
      and an unfinished loop is returned as it stands. */
  lemma MinimizeRunsTheLoop(m: Minimizer, model: Func1D, numerics: Numerics, fuel: nat)
    requires Valid(m, model) && WellShaped(model) && SolverShaped(numerics)
    ensures var o := Minimize(m, model, numerics, fuel);
            var l := Iterate(m, 0, model, numerics, fuel);
            && o.Converged? == l.Converged?
            && o.iterations == l.iterations
            && (o.OutOfFuel? ==> o.state == l.state)
            && (o.Converged? ==> o.before == l.before && o.inverseCov == l.inverseCov)
  {
  }

  /** A converged `minimize` ends with the pass that stopped it: run from
      `before`, that pass stops with the recorded normal matrix, and the
      result is that pass's state with the covariance and errors set. */
  lemma MinimizeEndsWithStoppingPass(m: Minimizer, model: Func1D, numerics: Numerics, fuel: nat)
    requires Valid(m, model) && WellShaped(model) && SolverShaped(numerics)
    ensures var o := Minimize(m, model, numerics, fuel);
            o.Converged? ==>
              && 0 < o.iterations <= fuel && Valid(o.before, model)
              && var p := Iteration(o.before, o.iterations - 1, model, numerics);
              && p.Stop? && p.inverseCov == o.inverseCov && Valid(p.state, model)
              && IsMatrix(o.inverseCov, p.state.numVaryingParams, p.state.numVaryingParams)
              && o.state == Finish(p.state, o.inverseCov, numerics)
  {
  }
}

=== FILE: ext_float.dfy ===
/**
 The few IEEE-754 double values that steer the fitter's control flow.

 The fitter works over `real`, but three of its decisions depend on what an
 f64 division by zero, or a fold seeded with NaN, produces: the gain ratio of
 a step whose predicted reduction is zero, the convergence metrics folded with
 `f64::max` from a NaN seed, and the coefficient of determination of constant
 data. This module models exactly those values: a finite number, NaN, and the
 two infinities. Rounding, overflow and signed zeros are not modelled.
 */
module ExtFloat {

  datatype F64 = NaN | PosInf | NegInf | Finite(value: real)

  /** Division of two finite numbers: a finite quotient, or the special value
      IEEE-754 gives for a zero divisor (0/0 is NaN, x/0 is an infinity with
      the sign of x). */
  function Div(a: real, b: real): F64
  {
    if b != 0.0 then Finite(a / b)
    else if a == 0.0 then NaN
    else if a > 0.0 then PosInf
    else NegInf
  }

  function Abs(x: F64): F64
  {
    match x
    case NaN => NaN
    case PosInf => PosInf
    case NegInf => PosInf
    case Finite(v) => Finite(if v < 0.0 then -v else v)
  }

  /** `1.0 - x` */
  function OneMinus(x: F64): F64
  {
    match x
    case NaN => NaN
    case PosInf => NegInf
    case NegInf => PosInf
    case Finite(v) => Finite(1.0 - v)
  }

  /** IEEE-754 multiplication on these values: NaN is absorbing, an infinity
      times zero is NaN, otherwise the sign is the product of the signs. */
  function Mul(a: F64, b: F64): F64
  {
    if a == NaN || b == NaN then NaN
    else if a.Finite? && b.Finite? then Finite(a.value * b.value)
    else if IsFiniteZero(a) || IsFiniteZero(b) then NaN
    else if Negative(a) == Negative(b) then PosInf
    else NegInf
  }

  predicate IsFiniteZero(x: F64)
  {
    x.Finite? && x.value == 0.0
  }

  predicate Negative(x: F64)
  {
    x == NegInf || (x.Finite? && x.value < 0.0)
  }

  /** `x.sqrt()`: NaN below zero, +inf stays +inf; `root` supplies the square
      root of a non-negative finite number. */
  function Sqrt(x: F64, root: real -> real): F64
  {
    match x
    case NaN => NaN
    case NegInf => NaN
    case PosInf => PosInf
    case Finite(v) => if v < 0.0 then NaN else Finite(root(v))
  }

  /** The order of the non-NaN values: -inf < every finite number < +inf. */
  predicate AtMost(a: F64, b: F64)
    requires a != NaN && b != NaN
  {
    a == NegInf || b == PosInf || (a.Finite? && b.Finite? && a.value <= b.value)
  }

  /** `x < c` for a finite constant `c`; every comparison with NaN is false. */
  predicate Lt(x: F64, c: real)
  {
    x == NegInf || (x.Finite? && x.value < c)
  }

  /** `x > c` for a finite constant `c`; every comparison with NaN is false. */
  predicate Gt(x: F64, c: real)
  {
    x == PosInf || (x.Finite? && x.value > c)
  }

  /** Rust's `f64::max`: if one argument is NaN the other one is returned. */
  function Max(a: F64, b: F64): F64
  {
    if a == NaN then b
    else if b == NaN then a
    else if AtMost(a, b) then b
    else a
  }

  /** `xs.iter().fold(0. / 0., f64::max)`: the left fold of `Max` seeded with NaN.
      The seed survives only when every element is NaN (in particular when
      there are none); otherwise the result is the largest non-NaN element. */
  function FoldMax(xs: seq<F64>): (r: F64)
    ensures r == NaN <==> forall i :: 0 <= i < |xs| ==> xs[i] == NaN
    ensures r != NaN ==> exists i :: 0 <= i < |xs| && xs[i] == r
    ensures forall i :: 0 <= i < |xs| && xs[i] != NaN ==> r != NaN && AtMost(xs[i], r)
    decreases |xs|
  {
    if |xs| == 0 then NaN
    else
      var init := xs[..|xs| - 1];
      var acc := FoldMax(init);
      assert forall i :: 0 <= i < |init| ==> init[i] == xs[i];
      Max(acc, xs[|xs| - 1])
  }
}

=== FILE: fitter.dfy ===
/**
 The minimizer state, its initialisation, and one Levenberg-Marquardt step
 (`Minimizer::init` and `Minimizer::lm`).
 */
module Fitter {
  import opened Vectors
  import opened ExtFloat
  import opened Mask
  import opened ChiSquared
  import opened NormalEquations
  import opened Collaborators

  datatype Result<T, E> = Success(value: T) | Failure(error: E)

  /** The assertions `init` makes before it builds the state; the last one
      stands for the panic of the unsigned subtraction `num_data - num_varying_params`. */
  datatype InitError =
    | VaryParameterLength
    | UncertaintyLength
    | DomainLength
    | ModelOutputLength
    | DegreesOfFreedomUnderflow

  /** Everything the fit carries from one iteration to the next. The model is
      not a field: it is passed alongside. */
  datatype Minimizer = Minimizer(
    y: Vector,
    sy: Vector,
    varyParameter: seq<bool>,
    weightingMatrix: Vector,
    minimizerParameters: Vector,
    minimizerYmodel: Vector,
    jacobian: Matrix,
    parameterCovMatrix: Matrix,
    parameterErrors: seq<F64>,
    lambda: real,
    numFuncEvaluation: nat,
    maxIterations: nat,
    numVaryingParams: nat,
    numParams: nat,
    numData: nat,
    chi2: real,
    dof: nat,
    redchi2: F64,
    convergenceMessage: string)

  /** The outcome of one `lm` call. */
  datatype MinimizationStep = MinimizationStep(
    parameters: Vector,
    delta: Vector,
    ymodel: Vector,
    chi2: real,
    redchi2: F64,
    metric: real,
    metricGradient: F64,
    metricParameters: F64,
    jtwj: Matrix)

  /** `W = 1 / sy^2`, the diagonal of the weighting matrix. */
  function Weights(sy: Vector): (w: Vector)
    requires NonZero(sy)
    ensures |w| == |sy|
    ensures forall i :: 0 <= i < |sy| ==> w[i] == 1.0 / (sy[i] * sy[i]) && w[i] > 0.0
  {
    seq(|sy|, i requires 0 <= i < |sy| => 1.0 / (sy[i] * sy[i]))
  }

  /** The reduced chi2 `chi2 / dof`, an f64 division: with no degrees of
      freedom it is +inf, or NaN for a perfect fit. */
  function ReducedChi2(chi2: real, dof: nat): (r: F64)
    ensures dof > 0 ==> r.Finite? && r.value * (dof as real) == chi2
    ensures dof == 0 ==> (r == NaN <==> chi2 == 0.0)
    ensures dof == 0 && chi2 > 0.0 ==> r == PosInf
  {
    Div(chi2, dof as real)
  }

  /** The shapes and counts every state of a fit keeps. */
  predicate Shaped(m: Minimizer)
  {
    && |m.y| == |m.sy| == |m.minimizerYmodel| == m.numData
    && |m.varyParameter| == |m.minimizerParameters| == m.numParams == |m.parameterErrors|
    && m.numVaryingParams == CountTrue(m.varyParameter)
    && m.dof + m.numVaryingParams == m.numData
    && m.maxIterations == 10 * m.numVaryingParams
    && NonZero(m.sy)
    && m.weightingMatrix == Weights(m.sy)
    && IsMatrix(m.jacobian, m.numData, m.numVaryingParams)
    && IsMatrix(m.parameterCovMatrix, m.numVaryingParams, m.numVaryingParams)
  }

  /** The bookkeeping every state of a fit keeps consistent with its model. */
  predicate Valid(m: Minimizer, model: Func1D)
  {
    && Shaped(m)
    && m.numData == |model.domain|
    && m.minimizerYmodel == model.forParameters(m.minimizerParameters)
    && m.chi2 == Chi2(m.y, m.minimizerYmodel, m.sy)
    && m.redchi2 == ReducedChi2(m.chi2, m.dof)
  }

  /** `Minimizer::init`: checks the lengths, evaluates the model once at its
      initial parameters and sets up the counters. */
  function Init(model: Func1D, y: Vector, sy: Vector, vary: seq<bool>, lambda: real): (r: Result<Minimizer, InitError>)
    requires NonZero(sy)
    ensures r == Failure(VaryParameterLength) <==> |vary| != |model.parameters|
    ensures r == Failure(UncertaintyLength) <==> |vary| == |model.parameters| && |y| != |sy|
    ensures r == Failure(DomainLength) <==>
              |vary| == |model.parameters| && |y| == |sy| && |y| != |model.domain|
    ensures r.Success? ==> |model.forParameters(model.parameters)| == |y|
    ensures r == Failure(ModelOutputLength) <==>
              |vary| == |model.parameters| && |y| == |sy| == |model.domain| &&
              |model.forParameters(model.parameters)| != |y|
    ensures r == Failure(DegreesOfFreedomUnderflow) <==>
              |vary| == |model.parameters| && |y| == |sy| == |model.domain| &&
              |model.forParameters(model.parameters)| == |y| && |TrueIndices(vary)| > |y|
    ensures r.Success? ==>
              var m := r.value;
              && m.numVaryingParams == |TrueIndices(vary)|
              && m.numParams == |vary| && m.numData == |y|
              && m.dof + m.numVaryingParams == m.numData
              && m.maxIterations == 10 * m.numVaryingParams
              && m.numFuncEvaluation == 0
              && m.convergenceMessage == ""
              && m.lambda == lambda
              && m.y == y && m.sy == sy && m.varyParameter == vary
              && m.minimizerParameters == model.parameters
              && m.minimizerYmodel == model.forParameters(model.parameters)
              && m.jacobian == model.parameterGradient(model.parameters, vary, m.minimizerYmodel)
              && (forall i :: 0 <= i < |m.parameterErrors| ==> m.parameterErrors[i] == Finite(0.0))
              && m.parameterCovMatrix == ZeroMatrix(m.numVaryingParams, m.numVaryingParams)
              && (m.chi2 == 0.0 <==> y == m.minimizerYmodel)
  {
    CountTrueIsCardinality(vary);
    if |vary| != |model.parameters| then Failure(VaryParameterLength)
    else if |y| != |sy| then Failure(UncertaintyLength)
    else if |y| != |model.domain| then Failure(DomainLength)
    else
      var initial := model.parameters;
      var ymodel := model.forParameters(initial);
      if |ymodel| != |y| then Failure(ModelOutputLength)
      else
        var nvp := CountTrue(vary);
        var numData := |model.domain|;
        if nvp > numData then Failure(DegreesOfFreedomUnderflow)
        else
          var chi2 := Chi2(y, ymodel, sy);
          var dof := numData - nvp;
          Success(Minimizer(
            y := y,
            sy := sy,
            varyParameter := vary,
            weightingMatrix := Weights(sy),
            minimizerParameters := initial,
            minimizerYmodel := ymodel,
            jacobian := model.parameterGradient(initial, vary, ymodel),
            parameterCovMatrix := ZeroMatrix(nvp, nvp),
            parameterErrors := seq(|initial|, _ => Finite(0.0)),
            lambda := lambda,
            numFuncEvaluation := 0,
            maxIterations := 10 * nvp,
            numVaryingParams := nvp,
            numParams := |initial|,
            numData := numData,
            chi2 := chi2,
            dof := dof,
            redchi2 := ReducedChi2(chi2, dof),
            convergenceMessage := ""))
  }

  /** For a model whose outputs and gradients have the right shape, a
      successful `init` yields a consistent state. */
  lemma InitEstablishesValid(model: Func1D, y: Vector, sy: Vector, vary: seq<bool>, lambda: real)
    requires NonZero(sy) && WellShaped(model)
    ensures Init(model, y, sy, vary, lambda).Success? ==> Valid(Init(model, y, sy, vary, lambda).value, model)
  {
  }

  /** `J^T W J`, the Gauss-Newton normal matrix over the varying parameters. */
  function JtWJ(m: Minimizer): (a: Matrix)
    requires Shaped(m)
    ensures IsMatrix(a, m.numVaryingParams, m.numVaryingParams) && Symmetric(a)
    ensures forall k, l :: 0 <= k < m.numVaryingParams && 0 <= l < m.numVaryingParams ==>
              a[k][l] == Dot(Weigh(Column(m.jacobian, k), m.weightingMatrix), Column(m.jacobian, l))
  {
    NormalMatrixSymmetric(m.jacobian, m.weightingMatrix, m.numVaryingParams);
    NormalMatrix(WeightedTranspose(m.jacobian, m.weightingMatrix, m.numVaryingParams), m.jacobian, m.numVaryingParams)
  }

  /** `b = J^T W (y - f)`, the right-hand side of the step equation. */
  function Rhs(m: Minimizer): (b: Vector)
    requires Shaped(m)
    ensures |b| == m.numVaryingParams
    ensures forall k :: 0 <= k < m.numVaryingParams ==>
              b[k] == Dot(Weigh(Column(m.jacobian, k), m.weightingMatrix), Sub(m.y, m.minimizerYmodel))
    ensures m.y == m.minimizerYmodel ==> IsZero(b)
  {
    var b := MatVec(WeightedTranspose(m.jacobian, m.weightingMatrix, m.numVaryingParams), Sub(m.y, m.minimizerYmodel));
    assert m.y == m.minimizerYmodel ==> IsZero(b) by {
      if m.y == m.minimizerYmodel {
        forall k | 0 <= k < m.numVaryingParams
          ensures b[k] == 0.0
        {
          var r := Sub(m.y, m.minimizerYmodel);
          var jw := Weigh(Column(m.jacobian, k), m.weightingMatrix);
          DotSymmetric(jw, r);
          DotZero(r, jw);
        }
      }
    }
    b
  }

  /** `p + delta_all`, where `delta_all` spreads the solved step over all
      parameters: fixed parameters never move, the varying ones move by
      `delta`, in mask order. */
  function StepParameters(vary: seq<bool>, p: Vector, delta: Vector): (r: Vector)
    requires |vary| == |p| && |delta| == CountTrue(vary)
    ensures |r| == |p|
    ensures forall i :: 0 <= i < |p| && !vary[i] ==> r[i] == p[i]
    ensures Gather(vary, Sub(r, p)) == delta
    ensures Sub(r, p) == Scatter(vary, delta, 0.0)
  {
    var deltaAll := Scatter(vary, delta, 0.0);
    var r := Add(p, deltaAll);
    assert Sub(r, p) == deltaAll;
    GatherScatter(vary, delta, 0.0);
    r
  }

  /** A zero step moves no parameter. */
  lemma ZeroStepKeepsParameters(vary: seq<bool>, p: Vector, delta: Vector)
    requires |vary| == |p| && |delta| == CountTrue(vary) && IsZero(delta)
    ensures StepParameters(vary, p, delta) == p
  {
    var r := StepParameters(vary, p, delta);
    ScatterOfFill(vary, delta, 0.0);
    assert forall i :: 0 <= i < |p| ==> Sub(r, p)[i] == 0.0;
    assert forall i :: 0 <= i < |p| ==> r[i] == p[i];
  }

  /** `metric_gradient`: the largest `|b_k|`, folded from a NaN seed, so NaN
      exactly when `b` is empty. */
  function GradientMetric(b: Vector): (r: F64)
    ensures r == NaN <==> |b| == 0
    ensures forall k :: 0 <= k < |b| ==> r != NaN && AtMost(Abs(Finite(b[k])), r)
    ensures |b| > 0 ==> exists k :: 0 <= k < |b| && r == Abs(Finite(b[k]))
  {
    var xs := seq(|b|, k requires 0 <= k < |b| => Abs(Finite(b[k])));
    assert forall k :: 0 <= k < |b| ==> xs[k] == Abs(Finite(b[k])) && xs[k] != NaN;
    FoldMax(xs)
  }

  /** `metric_parameters`: the largest relative change `|delta_all[i] / p[i]|`,
      an f64 division and a fold from a NaN seed. A zero parameter that moves
      gives +inf, which dominates; one that stays gives `0 / 0`, NaN, which
      the fold skips. Otherwise the metric is the largest relative change of a
      non-zero parameter, and NaN when there is none. */
  function ParameterMetric(deltaAll: Vector, p: Vector): (r: F64)
    requires |deltaAll| == |p|
    ensures r == PosInf <==> exists i :: 0 <= i < |p| && p[i] == 0.0 && deltaAll[i] != 0.0
    ensures r == NaN <==> forall i :: 0 <= i < |p| ==> p[i] == 0.0 && deltaAll[i] == 0.0
    ensures forall i :: 0 <= i < |p| && p[i] != 0.0 ==>
              r != NaN && AtMost(Abs(Finite(deltaAll[i] / p[i])), r)
    ensures r.Finite? ==> exists i :: 0 <= i < |p| && p[i] != 0.0 && r == Abs(Finite(deltaAll[i] / p[i]))
  {
    var xs := seq(|p|, i requires 0 <= i < |p| => Abs(Div(deltaAll[i], p[i])));
    assert forall i :: 0 <= i < |p| ==> xs[i] == Abs(Div(deltaAll[i], p[i]));
    assert forall i :: 0 <= i < |p| && p[i] != 0.0 ==> xs[i] == Abs(Finite(deltaAll[i] / p[i]));
    assert forall i :: 0 <= i < |p| && p[i] == 0.0 && deltaAll[i] != 0.0 ==> xs[i] == PosInf;
    assert forall i :: 0 <= i < |p| && p[i] == 0.0 && deltaAll[i] == 0.0 ==> xs[i] == NaN;
    FoldMax(xs)
  }

  /** `Minimizer::lm`: solve the damped normal equations for the step over the
      varying parameters, spread it over all parameters, evaluate the model
      there and measure the step. The state itself is not changed. */
  function Lm(m: Minimizer, model: Func1D, numerics: Numerics): (step: MinimizationStep)
    requires Valid(m, model) && OutputsMatchDomain(model) && SolverShaped(numerics)
    ensures |step.parameters| == m.numParams && |step.ymodel| == m.numData
    ensures |step.delta| == m.numVaryingParams
    ensures step.jtwj == JtWJ(m)
    ensures step.delta == numerics.matrixSolve(Damp(step.jtwj, m.lambda), Rhs(m))
    ensures step.parameters == StepParameters(m.varyParameter, m.minimizerParameters, step.delta)
    ensures step.ymodel == model.forParameters(step.parameters)
    ensures step.chi2 == Chi2(m.y, step.ymodel, m.sy)
    ensures step.redchi2 == ReducedChi2(step.chi2, m.dof)
    ensures step.metric == PredictedReduction(step.delta, Rhs(m), Scale(m.lambda, Diagonal(step.jtwj)))
    ensures step.metricGradient == GradientMetric(Rhs(m))
    ensures step.metricParameters == ParameterMetric(Sub(step.parameters, m.minimizerParameters), m.minimizerParameters)
  {
    var b := Rhs(m);
    var jtwj := JtWJ(m);
    var delta := numerics.matrixSolve(Damp(jtwj, m.lambda), b);
    var updated := StepParameters(m.varyParameter, m.minimizerParameters, delta);
    var ymodel := model.forParameters(updated);
    var chi2 := Chi2(m.y, ymodel, m.sy);
    MinimizationStep(
      parameters := updated,
      delta := delta,
      ymodel := ymodel,
      chi2 := chi2,
      redchi2 := ReducedChi2(chi2, m.dof),
      metric := PredictedReduction(delta, b, Scale(m.lambda, Diagonal(jtwj))),
      metricGradient := GradientMetric(b),
      metricParameters := ParameterMetric(Scatter(m.varyParameter, delta, 0.0), m.minimizerParameters),
      jtwj := jtwj)
  }

  /** A zero step leaves the parameters where they are, predicts no reduction
      and reproduces the current chi2. */
  lemma ZeroStepChangesNothing(m: Minimizer, model: Func1D, numerics: Numerics)
    requires Valid(m, model) && OutputsMatchDomain(model) && SolverShaped(numerics)
    requires IsZero(Lm(m, model, numerics).delta)
    ensures Lm(m, model, numerics).parameters == m.minimizerParameters
    ensures Lm(m, model, numerics).metric == 0.0
    ensures Lm(m, model, numerics).chi2 == m.chi2
  {
    var step := Lm(m, model, numerics);
    ZeroStepKeepsParameters(m.varyParameter, m.minimizerParameters, step.delta);
    ZeroStepPredictsNothing(step.delta, Rhs(m), Scale(m.lambda, Diagonal(step.jtwj)));
  }
}

=== FILE: mask.dfy ===
/**
 The variation mask `vary_parameter`: which entries of the parameter vector
 the fit may change. The solver works on the varying entries only; the
 results are spread back over the full parameter vector by walking the mask
 and consuming one solved value per `true` entry.
 */
module Mask {
  /** Number of `true` entries (the fold that computes `num_varying_params`). */
  function CountTrue(v: seq<bool>): (n: nat)
    ensures n <= |v|
    decreases |v|
  {
    if |v| == 0 then 0
    else CountTrue(v[..|v| - 1]) + (if v[|v| - 1] then 1 else 0)
  }

  /** Positions of the varying entries. */
  ghost function TrueIndices(v: seq<bool>): set<nat>
  {
    set i: nat | i < |v| && v[i]
  }

  /** The count is the number of varying positions. */
  lemma {:induction false} CountTrueIsCardinality(v: seq<bool>)
    ensures CountTrue(v) == |TrueIndices(v)|
    decreases |v|
  {
    if |v| > 0 {
      var n := |v| - 1;
      CountTrueIsCardinality(v[..n]);
      var before := TrueIndices(v[..n]);
      assert n !in before;
      if v[n] {
        assert TrueIndices(v) == before + {n};
      } else {
        assert TrueIndices(v) == before;
      }
    }
  }

  lemma CountTrueStep(v: seq<bool>, i: nat)
    requires i < |v|
    ensures CountTrue(v[..i + 1]) == CountTrue(v[..i]) + (if v[i] then 1 else 0)
  {
    assert v[..i + 1][..i] == v[..i];
  }

  /** Counting a prefix never exceeds counting the whole sequence, and a
      `true` entry is counted strictly inside it. */
  lemma {:induction false} CountTruePrefix(v: seq<bool>, i: nat)
    requires i <= |v|
    ensures CountTrue(v[..i]) <= CountTrue(v)
    ensures i < |v| && v[i] ==> CountTrue(v[..i]) < CountTrue(v)
    decreases |v| - i
  {
    if i < |v| {
      CountTrueStep(v, i);
      CountTruePrefix(v, i + 1);
    } else {
      assert v[..i] == v;
    }
  }

  /** `values` holds one entry per varying position. The result has one
      entry per parameter: the k-th varying position holds `values[k]`,
      every fixed position holds `zero`. */
  function Scatter<T>(vary: seq<bool>, values: seq<T>, zero: T): (r: seq<T>)
    requires |values| == CountTrue(vary)
    ensures |r| == |vary|
    ensures forall i :: 0 <= i < |vary| && !vary[i] ==> r[i] == zero
    ensures forall i :: 0 <= i < |vary| && vary[i] ==>
              CountTrue(vary[..i]) < |values| && r[i] == values[CountTrue(vary[..i])]
    decreases |vary|
  {
    if |vary| == 0 then []
    else
      var n := |vary| - 1;
      var init := vary[..n];
      assert forall i :: 0 <= i < n ==> init[..i] == vary[..i];
      if vary[n] then
        Scatter(init, values[..|values| - 1], zero) + [values[|values| - 1]]
      else
        Scatter(init, values, zero) + [zero]
  }

  /** Scattering nothing but fill values gives nothing but fill values. */
  lemma ScatterOfFill<T>(vary: seq<bool>, values: seq<T>, zero: T)
    requires |values| == CountTrue(vary)
    requires forall k :: 0 <= k < |values| ==> values[k] == zero
    ensures forall i :: 0 <= i < |vary| ==> Scatter(vary, values, zero)[i] == zero
  {
  }

  /** The inverse walk: the entries of `x` at the varying positions, in order. */
  function Gather<T>(vary: seq<bool>, x: seq<T>): (r: seq<T>)
    requires |x| == |vary|
    ensures |r| == CountTrue(vary)
    ensures forall i :: 0 <= i < |vary| && vary[i] ==>
              CountTrue(vary[..i]) < |r| && r[CountTrue(vary[..i])] == x[i]
    decreases |vary|
  {
    if |vary| == 0 then []
    else
      var n := |vary| - 1;
      var init := vary[..n];
      assert forall i :: 0 <= i < n ==> init[..i] == vary[..i];
      if vary[n] then Gather(init, x[..n]) + [x[n]]
      else Gather(init, x[..n])
  }

  predicate ZeroWhereFixed<T(==)>(vary: seq<bool>, x: seq<T>, zero: T)
    requires |x| == |vary|
  {
    forall i :: 0 <= i < |vary| && !vary[i] ==> x[i] == zero
  }

  /** Gathering what was scattered gives back the solved values. */
  lemma {:induction false} GatherScatter<T>(vary: seq<bool>, values: seq<T>, zero: T)
    requires |values| == CountTrue(vary)
    ensures Gather(vary, Scatter(vary, values, zero)) == values
    decreases |vary|
  {
    if |vary| > 0 {
      var n := |vary| - 1;
      var s := Scatter(vary, values, zero);
      if vary[n] {
        var m := |values| - 1;
        GatherScatter(vary[..n], values[..m], zero);
        assert s[..n] == Scatter(vary[..n], values[..m], zero);
        assert values == values[..m] + [values[m]];
      } else {
        GatherScatter(vary[..n], values, zero);
        assert s[..n] == Scatter(vary[..n], values, zero);
      }
    }
  }

  /** Scattering what was gathered restores any vector that is zero at the
      fixed positions. */
  lemma {:induction false} ScatterGather<T>(vary: seq<bool>, x: seq<T>, zero: T)
    requires |x| == |vary| && ZeroWhereFixed(vary, x, zero)
    ensures Scatter(vary, Gather(vary, x), zero) == x
    decreases |vary|
  {
    if |vary| > 0 {
      var n := |vary| - 1;
      var g := Gather(vary, x);
      var g0 := Gather(vary[..n], x[..n]);
      assert ZeroWhereFixed(vary[..n], x[..n], zero);
      ScatterGather(vary[..n], x[..n], zero);
      var s := Scatter(vary, g, zero);
      if vary[n] {
        assert g == g0 + [x[n]];
        assert g[..|g| - 1] == g0;
        assert s == Scatter(vary[..n], g0, zero) + [x[n]];
      } else {
        assert g == g0;
        assert s == Scatter(vary[..n], g0, zero) + [zero];
      }
      assert x == x[..n] + [x[n]];
    }
  }

  /** The mask walk as the fitter performs it, once for the parameter update
      and once for the parameter errors: one pass over the parameters with a
      running index into the varying values. */
  method ScatterWalk<T>(vary: seq<bool>, values: seq<T>, zero: T) returns (all: seq<T>)
    requires |values| == CountTrue(vary)
    ensures all == Scatter(vary, values, zero)
  {
    all := seq(|vary|, _ => zero);
    var idx := 0;
    var i := 0;
    while i < |vary|
      invariant 0 <= i <= |vary|
      invariant idx == CountTrue(vary[..i])
      invariant |all| == |vary|
      invariant forall j :: 0 <= j < i && vary[j] ==>
                  CountTrue(vary[..j]) < |values| && all[j] == values[CountTrue(vary[..j])]
      invariant forall j :: 0 <= j < |vary| && (j >= i || !vary[j]) ==> all[j] == zero
    {
      CountTrueStep(vary, i);
      if vary[i] {
        CountTruePrefix(vary, i);
        all := all[i := values[idx]];
        idx := idx + 1;
      }
      i := i + 1;
    }
    var s := Scatter(vary, values, zero);
    assert forall j :: 0 <= j < |vary| ==> all[j] == s[j];
  }
}

=== FILE: normal_equations.dfy ===
/**
 The linear system of one Levenberg-Marquardt step,

     [J^T W J + lambda diag(J^T W J)] delta = J^T W (y - f),

 where J is the Jacobian over the varying parameters (one row per data
 point) and W the diagonal weighting `1 / sy^2`.
 */
module NormalEquations {
  import opened Vectors

  /** `J^T W`: row k is column k of J weighted elementwise by w. */
  function WeightedTranspose(j: Matrix, w: Vector, cols: nat): (jtw: Matrix)
    requires IsMatrix(j, |w|, cols)
    ensures IsMatrix(jtw, cols, |w|)
    ensures forall k :: 0 <= k < cols ==> jtw[k] == Weigh(Column(j, k), w)
  {
    seq(cols, k requires 0 <= k < cols => Weigh(Column(j, k), w))
  }

  /** `J^T W J`, the Gauss-Newton approximation of the Hessian. */
  function NormalMatrix(jtw: Matrix, j: Matrix, cols: nat): (a: Matrix)
    requires IsMatrix(jtw, cols, |j|) && IsMatrix(j, |j|, cols)
    ensures IsMatrix(a, cols, cols)
    ensures forall k, l :: 0 <= k < cols && 0 <= l < cols ==> a[k][l] == Dot(jtw[k], Column(j, l))
  {
    seq(cols, k requires 0 <= k < cols =>
      seq(cols, l requires 0 <= l < cols => Dot(jtw[k], Column(j, l))))
  }

  /** `J^T W J` is symmetric: entry (k, l) is `Σ_i J[i][k] w[i] J[i][l]`. */
  lemma NormalMatrixSymmetric(j: Matrix, w: Vector, cols: nat)
    requires IsMatrix(j, |w|, cols)
    ensures Symmetric(NormalMatrix(WeightedTranspose(j, w, cols), j, cols))
  {
    var jtw := WeightedTranspose(j, w, cols);
    var a := NormalMatrix(jtw, j, cols);
    forall k, l | 0 <= k < cols && 0 <= l < cols
      ensures a[k][l] == a[l][k]
    {
      WeightedDotSymmetric(Column(j, k), w, Column(j, l));
    }
  }

  /** The damped matrix `A0 + lambda diag(A0)`: only the diagonal changes,
      each diagonal entry growing by lambda times itself. */
  function Damp(a0: Matrix, damping: real): (a: Matrix)
    requires IsMatrix(a0, |a0|, |a0|)
    ensures IsMatrix(a, |a0|, |a0|)
    ensures forall k :: 0 <= k < |a0| ==> a[k][k] == (1.0 + damping) * a0[k][k]
    ensures forall k, l :: 0 <= k < |a0| && 0 <= l < |a0| && k != l ==> a[k][l] == a0[k][l]
  {
    seq(|a0|, k requires 0 <= k < |a0| =>
      seq(|a0|, l requires 0 <= l < |a0| => if k == l then a0[k][l] + damping * a0[k][k] else a0[k][l]))
  }

  /** Damping keeps the system symmetric. */
  lemma DampPreservesSymmetry(a0: Matrix, damping: real)
    requires IsMatrix(a0, |a0|, |a0|) && Symmetric(a0)
    ensures Symmetric(Damp(a0, damping))
  {
  }

  /** Without damping the system is the Gauss-Newton one. */
  lemma DampZeroIsIdentity(a0: Matrix)
    requires IsMatrix(a0, |a0|, |a0|)
    ensures Damp(a0, 0.0) == a0
  {
    var a := Damp(a0, 0.0);
    forall k | 0 <= k < |a0|
      ensures a[k] == a0[k]
    {
      assert forall l :: 0 <= l < |a0| ==> a[k][l] == a0[k][l];
    }
  }

  /** The `metric` of a step: `delta·b + Σ_k delta_k^2 * lambdaDiag_k`, the
      reduction of chi2 the linearised model predicts. */
  function PredictedReduction(delta: Vector, b: Vector, lambdaDiag: Vector): (r: real)
    requires |delta| == |b| == |lambdaDiag|
    ensures NonNegative(lambdaDiag) ==> r >= Dot(delta, b)
  {
    var r := Dot(delta, b) + Dot(Squares(delta), lambdaDiag);
    assert NonNegative(lambdaDiag) ==> r >= Dot(delta, b) by {
      if NonNegative(lambdaDiag) { DampingTermNonNegative(delta, lambdaDiag); }
    }
    r
  }

  /** The damping term `Σ_k delta_k^2 * lambdaDiag_k` is never negative. */
  lemma DampingTermNonNegative(delta: Vector, lambdaDiag: Vector)
    requires |delta| == |lambdaDiag| && NonNegative(lambdaDiag)
    ensures Dot(Squares(delta), lambdaDiag) >= 0.0
  {
    var sq := Squares(delta);
    forall i | 0 <= i < |delta|
      ensures sq[i] * lambdaDiag[i] >= 0.0
    {
      assert sq[i] >= 0.0;
    }
    DotNonNegative(sq, lambdaDiag);
  }

  /** A zero step predicts no reduction. */
  lemma ZeroStepPredictsNothing(delta: Vector, b: Vector, lambdaDiag: Vector)
    requires |delta| == |b| == |lambdaDiag| && IsZero(delta)
    ensures PredictedReduction(delta, b, lambdaDiag) == 0.0
  {
    DotZero(delta, b);
    var sq := Squares(delta);
    forall i | 0 <= i < |delta|
      ensures sq[i] == 0.0
    {
      var d := delta[i];
      assert d == 0.0;
      assert sq[i] == d * d;
    }
    DotZero(sq, lambdaDiag);
  }
}

=== FILE: vectors.dfy ===
/**
 Dense vectors and matrices over `real`, standing in for ndarray's `Array1<f64>`
 and `Array2<f64>`. A matrix is a sequence of rows.
 */
module Vectors {

  type Vector = seq<real>
  type Matrix = seq<seq<real>>

  function Dot(a: Vector, b: Vector): real
    requires |a| == |b|
    decreases |a|
  {
    if |a| == 0 then 0.0 else a[0] * b[0] + Dot(a[1..], b[1..])
  }

  function Zeros(n: nat): (r: Vector)
    ensures |r| == n && IsZero(r)
  {
    seq(n, _ => 0.0)
  }

  function Add(a: Vector, b: Vector): (r: Vector)
    requires |a| == |b|
    ensures |r| == |a|
    ensures forall i :: 0 <= i < |a| ==> r[i] == a[i] + b[i]
  {
    seq(|a|, i requires 0 <= i < |a| => a[i] + b[i])
  }

  function Sub(a: Vector, b: Vector): (r: Vector)
    requires |a| == |b|
    ensures |r| == |a|
    ensures forall i :: 0 <= i < |a| ==> r[i] == a[i] - b[i]
  {
    seq(|a|, i requires 0 <= i < |a| => a[i] - b[i])
  }

  function Scale(c: real, a: Vector): (r: Vector)
    ensures |r| == |a|
    ensures forall i :: 0 <= i < |a| ==> r[i] == c * a[i]
  {
    seq(|a|, i requires 0 <= i < |a| => c * a[i])
  }

  /** Elementwise product `a * w` (a diagonal weighting applied to `a`). */
  function Weigh(a: Vector, w: Vector): (r: Vector)
    requires |a| == |w|
    ensures |r| == |a|
    ensures forall i :: 0 <= i < |a| ==> r[i] == a[i] * w[i]
  {
    seq(|a|, i requires 0 <= i < |a| => a[i] * w[i])
  }

  /** Elementwise square `a.powi(2)`. */
  function Squares(a: Vector): (r: Vector)
    ensures |r| == |a|
    ensures forall i :: 0 <= i < |a| ==> r[i] == a[i] * a[i]
  {
    seq(|a|, i requires 0 <= i < |a| => a[i] * a[i])
  }

  predicate IsZero(a: Vector)
  {
    forall i :: 0 <= i < |a| ==> a[i] == 0.0
  }

  predicate NonNegative(a: Vector)
  {
    forall i :: 0 <= i < |a| ==> a[i] >= 0.0
  }

  predicate IsMatrix(m: Matrix, rows: nat, cols: nat)
  {
    |m| == rows && forall i :: 0 <= i < rows ==> |m[i]| == cols
  }

  function ZeroMatrix(rows: nat, cols: nat): (r: Matrix)
    ensures IsMatrix(r, rows, cols)
  {
    seq(rows, _ => Zeros(cols))
  }

  function Column(m: Matrix, j: nat): (r: Vector)
    requires forall i :: 0 <= i < |m| ==> j < |m[i]|
    ensures |r| == |m|
    ensures forall i :: 0 <= i < |m| ==> r[i] == m[i][j]
  {
    seq(|m|, i requires 0 <= i < |m| => m[i][j])
  }

  /** Matrix-vector product `m.dot(v)`. */
  function MatVec(m: Matrix, v: Vector): (r: Vector)
    requires forall i :: 0 <= i < |m| ==> |m[i]| == |v|
    ensures |r| == |m|
    ensures forall i :: 0 <= i < |m| ==> r[i] == Dot(m[i], v)
  {
    seq(|m|, i requires 0 <= i < |m| => Dot(m[i], v))
  }

  function Diagonal(m: Matrix): (r: Vector)
    requires IsMatrix(m, |m|, |m|)
    ensures |r| == |m|
    ensures forall k :: 0 <= k < |m| ==> r[k] == m[k][k]
  {
    seq(|m|, k requires 0 <= k < |m| => m[k][k])
  }

  predicate Symmetric(m: Matrix)
    requires IsMatrix(m, |m|, |m|)
  {
    forall k, l :: 0 <= k < |m| && 0 <= l < |m| ==> m[k][l] == m[l][k]
  }

  // ---------------------------------------------------------------------
  // Algebra of Dot
  // ---------------------------------------------------------------------

  lemma {:induction false} DotSymmetric(a: Vector, b: Vector)
    requires |a| == |b|
    ensures Dot(a, b) == Dot(b, a)
    decreases |a|
  {
    if |a| > 0 {
      DotSymmetric(a[1..], b[1..]);
    }
  }

  /** Dot is linear in its first argument. */
  lemma DotAddScaled(a: Vector, c: real, d: Vector, b: Vector)
    requires |a| == |d| == |b|
    ensures Dot(Add(a, Scale(c, d)), b) == Dot(a, b) + c * Dot(d, b)
  {
    DotAdd(a, Scale(c, d), b);
    DotScale(c, d, b);
  }

  lemma {:induction false} DotAdd(a: Vector, d: Vector, b: Vector)
    requires |a| == |d| == |b|
    ensures Dot(Add(a, d), b) == Dot(a, b) + Dot(d, b)
    decreases |a|
  {
    if |a| > 0 {
      assert Add(a, d)[1..] == Add(a[1..], d[1..]);
      DotAdd(a[1..], d[1..], b[1..]);
    }
  }

  lemma {:induction false} DotScale(c: real, a: Vector, b: Vector)
    requires |a| == |b|
    ensures Dot(Scale(c, a), b) == c * Dot(a, b)
    decreases |a|
  {
    if |a| > 0 {
      assert forall i :: 0 <= i < |a| - 1 ==> Scale(c, a)[1..][i] == Scale(c, a[1..])[i];
      assert Scale(c, a)[1..] == Scale(c, a[1..]);
      DotScale(c, a[1..], b[1..]);
      assert Scale(c, a)[0] * b[0] == c * (a[0] * b[0]);
    }
  }

  lemma {:induction false} DotZero(a: Vector, b: Vector)
    requires |a| == |b| && IsZero(a)
    ensures Dot(a, b) == 0.0
    decreases |a|
  {
    if |a| > 0 {
      DotZero(a[1..], b[1..]);
    }
  }

  /** A sum of pointwise non-negative products is non-negative. */
  lemma {:induction false} DotNonNegative(a: Vector, b: Vector)
    requires |a| == |b|
    requires forall i :: 0 <= i < |a| ==> a[i] * b[i] >= 0.0
    ensures Dot(a, b) >= 0.0
    decreases |a|
  {
    if |a| > 0 {
      DotNonNegative(a[1..], b[1..]);
    }
  }

  /** ... and positive as soon as one product is positive. */
  lemma {:induction false} DotPositive(a: Vector, b: Vector, k: nat)
    requires |a| == |b|
    requires forall i :: 0 <= i < |a| ==> a[i] * b[i] >= 0.0
    requires k < |a| && a[k] * b[k] > 0.0
    ensures Dot(a, b) > 0.0
    decreases |a|
  {
    if k == 0 {
      DotNonNegative(a[1..], b[1..]);
    } else {
      DotPositive(a[1..], b[1..], k - 1);
    }
  }

  /** `a·a` is zero for the zero vector and positive for every other one. */
  lemma DotSelfPositive(a: Vector)
    ensures Dot(a, a) >= 0.0
    ensures IsZero(a) <==> Dot(a, a) == 0.0
  {
    DotNonNegative(a, a);
    if IsZero(a) {
      DotZero(a, a);
    } else {
      var k :| 0 <= k < |a| && a[k] != 0.0;
      DotPositive(a, a, k);
    }
  }

  /** The weighted product `Σ a_i w_i b_i` does not depend on which side is weighted. */
  lemma {:induction false} WeightedDotSymmetric(a: Vector, w: Vector, b: Vector)
    requires |a| == |w| == |b|
    ensures Dot(Weigh(a, w), b) == Dot(Weigh(b, w), a)
    decreases |a|
  {
    if |a| > 0 {
      WeighTail(a, w);
      WeighTail(b, w);
      WeightedDotSymmetric(a[1..], w[1..], b[1..]);
      assert (a[0] * w[0]) * b[0] == (b[0] * w[0]) * a[0];
    }
  }

  lemma WeighTail(a: Vector, w: Vector)
    requires |a| == |w| && |a| > 0
    ensures Weigh(a, w)[1..] == Weigh(a[1..], w[1..])
  {
    assert forall i :: 0 <= i < |a| - 1 ==> Weigh(a, w)[1..][i] == Weigh(a[1..], w[1..])[i];
  }
}
